=== FILE: README.md ===
# Resep Nusantara client core, modelled in Dafny

Resep Nusantara is a React recipe-sharing client. This project models its
client-side core as pure Dafny functions, methods and lemmas:

- the favorites store kept in browser storage (`src/utils/favoriteUtils.js`);
- the hash-routed navigation state machine of the app root (`src/main.jsx`);
- the profile page's "my reviews" pipeline (`src/pages/ProfilePage.jsx`).
  It drains the paginated recipe catalog, fetches each recipe's reviews,
  keeps those written under the local user identifier and enriches them. The
  same module covers saving the profile, the avatar size gate and the events
  that reload the favorites tab;
- the recipe edit form (`src/pages/EditRecipePage.jsx`):
  - loading a recipe into form state;
  - the ingredient and step list editing;
  - the image picker checks;
  - `validateForm`;
  - the payload that `handleSubmit` builds;
- the response-shape normalisation of the `useRecipes` and `useRecipe` hooks
  (`src/hooks/useRecipes.js`);
- the share link, the share-or-copy decision and the "copied" flag of the
  share button (`src/components/common/ShareButton.jsx`);
- the image upload service (`src/services/uploadService.js`). As written, it
  rejects every file that passes its own checks; see Findings below.

Layout: one module per source file, plus four helper modules.

| file | module |
|---|---|
| `favorites.dfy` | `Favorites` |
| `navigation.dfy` | `Navigation` |
| `profile.dfy` | `Profile` |
| `edit_recipe.dfy` | `EditRecipe` |
| `use_recipes.dfy` | `UseRecipes` |
| `share_button.dfy` | `ShareButton` |
| `upload_service.dfy` | `UploadService` |

The helper modules are:

- `Wrappers`: `Option` and `Result`.
- `Seqs`: `indexOf`, `splice(i, 1)` and the no-duplicates predicate.
- `Text`: `trim`, `startsWith` and blank strings.
- `JsValues`: a JSON value type with `undefined`, truthiness, `||`, `??` and `?.`.

Services, browser storage and browser APIs are parameters of the model, as
follows:

- A remote call is a function from its arguments to a `Result`. `Failure`
  stands for a rejected promise.
- The storage blob is a value.
- The share and clipboard APIs are described by how each call settled.
- A `favoriteUpdated` window event is appended to an event log.

The model follows the code where it differs from what its own comments and
the expected usage suggest:

- `selectedRecipeId` being set does not imply that the detail view is shown.
  `Navigation.SelectionOutlivesDetail` shows the edit flow that breaks it.
- `handleEditRecipe` leaves the URL hash alone.
- The success handlers do not clear the selected or editing ids.
- A hash without a category, or with an empty one, opens category
  `makanan`. The default does not depend on the current page.

## Model

| member | source | states |
|---|---|---|
| `Favorites.GetFavoriteIds` | src/utils/favoriteUtils.js:8-15 | A missing, empty or unparsable blob reads as an empty id list |
| `Favorites.IsFavorited` | src/utils/favoriteUtils.js:22-25 | True exactly when the `indexOf` search the mutations use finds the id, so membership and the mutations agree; false when nothing is stored |
| `Favorites.GetFavoriteCount` | src/utils/favoriteUtils.js:147-149 | Zero when nothing is stored, and zero only when no id is favorited |
| `Favorites.Toggle` | src/utils/favoriteUtils.js:32-52 | Returns true exactly when the id was absent. Absent: the id is appended. Present: only its first occurrence is removed. It always persists and logs one event carrying the returned value |
| `Favorites.Add` | src/utils/favoriteUtils.js:93-113 | Returns true exactly when the id was absent, and then appends it and logs an add event. A present id leaves blob and event log untouched |
| `Favorites.Remove` | src/utils/favoriteUtils.js:120-141 | Returns true exactly when the id was present, and then removes its first occurrence and logs a remove event. An absent id changes nothing |
| `Favorites.ToggleTwiceAbsent` | src/utils/favoriteUtils.js:32-52 | Toggling an absent id twice restores the stored list and logs add then remove |
| `Favorites.ToggleTwicePresent` | src/utils/favoriteUtils.js:32-52 | Toggling a present id twice on a duplicate-free list keeps the same ids but moves that id last, so the order changes unless it was already last |
| `Favorites.MutationsKeepNoDup` | src/utils/favoriteUtils.js:32-141 | Toggle, add and remove never introduce a duplicate id |
| `Favorites.EventsReportNewMembership` | src/utils/favoriteUtils.js:22-52 | After a state-changing call, `isFavorited` equals the event's flag, and `getFavoriteCount` moves by one in that direction |
| `Favorites.Materialize` | src/utils/favoriteUtils.js:67-81 | The result is never longer than the id list, holds no `null`, and holds only records that some id's successful fetch returned |
| `Favorites.FetchOne` | src/utils/favoriteUtils.js:67-78 | An id yields a record exactly when its fetch resolves to a non-nullish response whose `success` is truthy, and the record is that response's `data`; a throw or an unsuccessful response yields the `null` that is filtered out |
| `Favorites.GetFavoriteRecipes` | src/utils/favoriteUtils.js:58-86 | The materialization of the stored ids, so the lemmas below fix it: records in id order, failed fetches omitted. No stored ids means no fetch and an empty result; never more records than stored ids |
| `Favorites.MaterializeAppend` | src/utils/favoriteUtils.js:67-81 | The output follows the ids' order: materializing a concatenation materializes each part in turn |
| `Favorites.FailedFetchIsOmitted` | src/utils/favoriteUtils.js:67-81 | An id whose fetch throws or is unsuccessful is dropped without affecting the others |
| `Favorites.AllFetchesSucceed` | src/utils/favoriteUtils.js:67-81 | When every fetch succeeds with non-null data, the result is exactly that data, one per id, in id order |
| `Navigation.InitialView` | src/main.jsx:18-23 | Before the mount effect: the splash over the home page in list mode, nothing selected or being edited, category `makanan` |
| `Navigation.FirstField` | src/main.jsx:33-34 | `split('/')[0]`: the slash-free prefix that ends at the first slash or at the end |
| `Navigation.FirstFieldOfJoin` | src/main.jsx:33-34 | A slash-free string followed by nothing or by a slash is its own first field |
| `Navigation.ParseRecipeHash` | src/main.jsx:30-35 | A link exactly for hashes starting `#/recipe/`. Its id is the first field after the prefix. Its category is the second field when that is non-empty, and `makanan` when it is absent or empty, whatever follows |
| `Navigation.RecipeHash` | src/main.jsx:83 | The written hash is a recipe link, and its first field after the prefix is the id when the id is slash-free |
| `Navigation.RecipeHashRoundTrip` | src/main.jsx:83 | Parsing the hash written for an id and a non-empty category, neither containing a slash, gives them back |
| `Navigation.HashChange` | src/main.jsx:27-45 | A recipe hash opens its detail view and dismisses the splash, leaving page and editing id. Any other hash leaves the state alone |
| `Navigation.Mount` | src/main.jsx:47-48 | The listener run once on mount: a recipe link opens its detail view over the home page with the splash dismissed and nothing being edited; any other hash keeps the initial state |
| `Navigation.MountRenders` | src/main.jsx:47-51 | On mount, the splash shows unless the URL is a recipe link, which renders that recipe's detail page directly |
| `Navigation.SplashComplete` | src/main.jsx:58-60 | Only `showSplash` changes, to false |
| `Navigation.Navigate` | src/main.jsx:62-69 | List mode on the given page, both ids cleared, hash cleared, splash and category kept |
| `Navigation.CreateRecipe` | src/main.jsx:71-74 | Create mode with the hash cleared; nothing else changes |
| `Navigation.EffectiveCategory` | src/main.jsx:79 | `category \|\| currentPage` |
| `Navigation.RecipeClick` | src/main.jsx:76-84 | Detail mode on the clicked id and effective category, with the hash set to that recipe's link. Page, editing id and splash are kept |
| `Navigation.RecipeClickThenHashChange` | src/main.jsx:76-84 | The `hashchange` fired by a recipe click is a no-op when id and category are slash-free and the category is non-empty |
| `Navigation.EditRecipe` | src/main.jsx:86-91 | Edit mode on the given id; hash, selected id and category, page and splash untouched |
| `Navigation.Back` | src/main.jsx:93-99 | List mode with both ids and the hash cleared; page, selected category and splash kept |
| `Navigation.CreateSuccess` | src/main.jsx:101-108 | List mode, hash cleared. The page moves to the new recipe's category when that is truthy. Both ids, the selected category and the splash are kept |
| `Navigation.EditSuccess` | src/main.jsx:110-114 | Only the mode (to list) and the hash (cleared) change |
| `Navigation.ClearedHashIsInert` | src/main.jsx:62-114 | The `hashchange` that follows each hash-clearing handler changes nothing |
| `Navigation.PageFor` | src/main.jsx:147-158 | Each known page name selects its page; anything else renders the home page |
| `Navigation.Render` | src/main.jsx:116-167 | Splash exactly while `showSplash`. Otherwise create, edit and detail take precedence over the page switch. Navbars show exactly in list mode |
| `Navigation.SelectionOutlivesDetail` | src/main.jsx:86-114 | Editing from the detail view and saving returns to the list with the selected id still set |
| `Profile.DrainFrom` | src/pages/ProfilePage.jsx:98-117 | A drain that finishes makes between one request and its request budget |
| `Profile.DrainWithinBound` | src/pages/ProfilePage.jsx:103-117 | When `total_pages` never exceeds a bound, the drain ends within that many requests |
| `Profile.DrainCatalog` | src/pages/ProfilePage.jsx:98-117 | The while loop requests pages 1, 2, … with limit 50 and stops after a page without more. It returns the reference drain's recipes, or the error of the rejected request |
| `Profile.ConstantTotalPages` | src/pages/ProfilePage.jsx:103-117 | A service always reporting `total_pages = n` is asked for exactly max(1, n) pages, and the catalog is their recipes in page order |
| `Profile.EnrichMatching` | src/pages/ProfilePage.jsx:133-157 | Exactly the reviews whose `user_identifier` strictly equals the local identifier are kept, each enriched with the recipe's fields; as many as match |
| `Profile.EnrichMatchingAppend` | src/pages/ProfilePage.jsx:133-157 | Filtering distributes over concatenation, so kept reviews stay in the service's order with their multiplicity |
| `Profile.EnrichMatchingSingle` | src/pages/ProfilePage.jsx:133-157 | One review is kept, enriched, exactly when it matches the user |
| `Profile.ReviewsForRecipe` | src/pages/ProfilePage.jsx:126-161 | A rejected, unsuccessful or data-less review request contributes nothing. Otherwise the recipe's contribution is its matching reviews, each enriched with that recipe |
| `Profile.Reconciled` | src/pages/ProfilePage.jsx:125-162 | Every reconciled review matches the user and carries the fields of a catalog recipe |
| `Profile.ReconciledAppend` | src/pages/ProfilePage.jsx:125-162 | Reconciliation is per recipe and in catalog order |
| `Profile.FailedRecipeContributesNothing` | src/pages/ProfilePage.jsx:126-161 | A recipe whose review request fails in any way contributes nothing, and the others are still reconciled |
| `Profile.ReconcileReviews` | src/pages/ProfilePage.jsx:125-162 | The `for` loop computes the reference reconciliation |
| `Profile.LoadUserReviews` | src/pages/ProfilePage.jsx:87-184 | Loading ends, and the drain terminates under the bound. A failed drain keeps the previous reviews; otherwise the tab shows the reconciliation of the drained catalog |
| `Profile.SaveProfileUpdate` | src/pages/ProfilePage.jsx:206-211 | The username is trimmed, or `Pengguna` when blank, so it is never empty. The bio is trimmed and the avatar kept |
| `Profile.SaveProfileIdempotent` | src/pages/ProfilePage.jsx:206-211 | Saving the saved values again changes nothing |
| `Profile.AvatarDecision` | src/pages/ProfilePage.jsx:186-193 | No file is ignored. A file is read exactly when it is at most 2 MiB |
| `Profile.ReloadsFavorites` | src/pages/ProfilePage.jsx:60-72 | Every `favoriteUpdated` event reloads the tab; a `storage` event reloads it exactly when its key is `favorites` |
| `Profile.StoreChangesReloadFavorites` | src/pages/ProfilePage.jsx:60-72 | Every toggle, add or remove that changes the store dispatches one event that reloads the favorites tab; a `storage` event reloads it exactly for the `favorites` key |
| `EditRecipe.NonBlankSteps` | src/pages/EditRecipePage.jsx:67-78 | Fails, as `trim` throws, exactly when some mapped step is not a string. Otherwise the result is the mapped texts (an object's `instruction \|\| step \|\| ''`, a string itself, anything else `''`) with the blank ones filtered out, in order |
| `EditRecipe.LoadSteps` | src/pages/EditRecipePage.jsx:66-83 | Fails exactly when an array entry maps to a non-string. Otherwise the non-blank mapped steps, or one blank step when there are none or the field is not a non-empty array |
| `EditRecipe.StringStepsKeepNonBlank` | src/pages/EditRecipePage.jsx:67-80 | Loading plain string steps keeps exactly the non-blank ones, in order |
| `EditRecipe.NonBlankKeepsNonBlank` | src/pages/EditRecipePage.jsx:78 | The blank filter keeps a list of non-blank strings whole |
| `EditRecipe.IngredientRecordsLoad` | src/pages/EditRecipePage.jsx:57-61 | Ingredient records with string fields load back to the same pairs |
| `EditRecipe.LoadRecipeRoundTrip` | src/pages/EditRecipePage.jsx:32-83 | A recipe whose category and difficulty are non-empty, whose numbers are not 0, with at least one ingredient and only non-blank steps, loads into exactly those form fields, image URL, ingredients and steps, with no error |
| `EditRecipe.LoadIngredientList` | src/pages/EditRecipePage.jsx:57-61 | One pair per entry, holding that entry's `name \|\| ''` and `quantity \|\| ''`; fails exactly when an entry is `null` or `undefined` |
| `EditRecipe.LoadIngredients` | src/pages/EditRecipePage.jsx:56-64 | A non-empty array is mapped entry by entry; a missing or empty array gives one blank pair |
| `EditRecipe.FormOf` | src/pages/EditRecipePage.jsx:42-51 | A string name or description is kept, and a falsy one reads as empty. A truthy string category or difficulty is kept, and a falsy one reads as `makanan` or `mudah`. A number is kept exactly when it is non-zero. The featured flag is the field's truthiness |
| `EditRecipe.LoadRecipe` | src/pages/EditRecipePage.jsx:32-95 | A rejection or `success` falsy sets only the error, to the rejection or to `message \|\| 'Gagal memuat data resep'`. Otherwise every form field is read with its default (`makanan`, `mudah`), then the image URL, the ingredients and the steps, in that order. A TypeError in the ingredient or step mapping leaves the earlier fields set. The error is clear exactly when the steps were set |
| `EditRecipe.AddEntry` | src/pages/EditRecipePage.jsx:144-162 | One blank entry appended, the rest unchanged |
| `EditRecipe.RemoveEntry` | src/pages/EditRecipePage.jsx:148-168 | A one-entry list is never emptied. Otherwise exactly the entry at the index is dropped, or nothing when the index is outside the list |
| `EditRecipe.ImageChangeDecision` | src/pages/EditRecipePage.jsx:102-120 | No file changes nothing. A file is accepted exactly when it is at most 5 MiB and of an allowed type. The size is checked first, each with its own message |
| `EditRecipe.CheckOrderDiffers` | src/pages/EditRecipePage.jsx:106-115 | An oversized file of the wrong type is reported as too large by the page but as mistyped by the upload service |
| `EditRecipe.FirstFailureIsFirst` | src/pages/EditRecipePage.jsx:170-221 | The first-failure scan finds nothing exactly when all checks pass. Otherwise it reports a failing check preceded only by passing ones |
| `EditRecipe.FirstFailureAt` | src/pages/EditRecipePage.jsx:170-221 | A failing check preceded only by passing checks is the one reported |
| `Text.Utf16Length` | src/pages/EditRecipePage.jsx:176 | JavaScript's `length`: between one and two code units per character, and the character count when every character lies in the Basic Multilingual Plane |
| `EditRecipe.ValidateForm` | src/pages/EditRecipePage.jsx:170-221 | Valid exactly when the name trims to at least 3 UTF-16 code units, all three numbers are positive, some ingredient and some step are non-blank, and there is an image |
| `EditRecipe.ValidateFormReportsFirstFailure` | src/pages/EditRecipePage.jsx:170-221 | The error shown is the message of the first failing check in source order |
| `EditRecipe.SurrogatePairNameIsLongEnough` | src/pages/EditRecipePage.jsx:171-179 | A name of two emoji is four code units long and passes both name checks |
| `EditRecipe.CleanIngredient` | src/pages/EditRecipePage.jsx:261-264 | A valid ingredient comes out as the trim of each field, both non-empty and trimmed |
| `EditRecipe.CleanIngredients` | src/pages/EditRecipePage.jsx:259-264 | Never longer than the input. Non-empty exactly when some ingredient is valid. Every entry is non-empty and trimmed |
| `EditRecipe.CleanSteps` | src/pages/EditRecipePage.jsx:266-268 | Never longer than the input. Non-empty exactly when some step is non-blank. Every entry is non-empty and trimmed |
| `EditRecipe.CleanIngredientsSingle` | src/pages/EditRecipePage.jsx:259-264 | One ingredient is kept, as the trim of both fields, exactly when it is valid; with the append lemma this fixes every cleaned list |
| `EditRecipe.CleanStepsSingle` | src/pages/EditRecipePage.jsx:266-268 | One step is kept, trimmed, exactly when it is not blank; with the append lemma this fixes every cleaned list |
| `EditRecipe.CleanIngredientsAppend` | src/pages/EditRecipePage.jsx:259-264 | Cleaning preserves the form's ingredient order |
| `EditRecipe.CleanStepsAppend` | src/pages/EditRecipePage.jsx:266-268 | Cleaning preserves the form's step order |
| `EditRecipe.CleanKeepsCleanIngredients` | src/pages/EditRecipePage.jsx:259-264 | Ingredients already valid and trimmed are submitted unchanged |
| `EditRecipe.CleanKeepsCleanSteps` | src/pages/EditRecipePage.jsx:266-268 | Steps already non-blank and trimmed are submitted unchanged |
| `EditRecipe.CleanIdempotent` | src/pages/EditRecipePage.jsx:259-268 | Cleaning twice is cleaning once |
| `EditRecipe.Submit` | src/pages/EditRecipePage.jsx:223-301 | Rejected exactly when validation fails, with its message. For a valid form, each failure carries the message the user sees. A rejected upload shows its own message, or `Terjadi kesalahan saat memperbarui resep` when that is empty. An unsuccessful upload shows `Gagal upload gambar: ` followed by its error, or by `Unknown error`. An empty final URL shows `Image URL is required`. A valid form is submitted exactly when the final URL is non-empty. That URL is the current one without a new file, and the upload's URL after a successful upload. It also carries the trimmed name (at least 3 UTF-16 code units) and description, the category, difficulty and featured flag as entered, the three positive numbers, and the non-empty cleaned ingredients and steps |
| `EditRecipe.NewImageNeverSubmitted` | src/pages/EditRecipePage.jsx:237-247 | With the upload service as written, a valid form with a new image never reaches the update call |
| `EditRecipe.NewImageSubmittedWhenPosted` | src/pages/EditRecipePage.jsx:237-247 | With the intended upload, a valid form and a successful POST submit the posted URL |
| `UseRecipes.Payload` | src/hooks/useRecipes.js:23 | The response's `data` unless that is nullish, else the response itself |
| `UseRecipes.AsList` | src/hooks/useRecipes.js:38-39 | Arrays kept, other truthy values wrapped, falsy values give `[]` |
| `UseRecipes.FetchRecipes` | src/hooks/useRecipes.js:15-48 | Loading ends. An error is set exactly when the payload reports `success === false`: `message \|\| 'Failed to fetch recipes'`, with recipes and pagination emptied. An array in `payload.data` becomes the recipes with `pagination \|\| null`. A bare array response becomes the recipes with `null` pagination. Any other shape goes through the `AsList` fallback with `pagination ?? null`. A rejection keeps the pagination; one with a non-nullish reason empties the recipes and sets `message \|\| default` |
| `UseRecipes.WrappedEnvelope` | src/hooks/useRecipes.js:29-31 | A full HTTP response around the API envelope yields its items and its pagination, or `null` when that is falsy |
| `UseRecipes.BareEnvelopeDropsPagination` | src/hooks/useRecipes.js:36-41 | A bare envelope yields the same items, but the pagination is lost |
| `UseRecipes.FailureShapesAgree` | src/hooks/useRecipes.js:23-28 | A `success: false` body gives the same state whether wrapped or bare |
| `UseRecipes.FetchRecipe` | src/hooks/useRecipes.js:73-99 | A falsy id only ends the loading. Otherwise an error is set exactly when the payload reports failure, with its message or the default, and the recipe cleared. Else a truthy `payload.data` becomes the recipe, and otherwise `payload ?? null`, so the recipe is never `undefined`. A rejection clears the recipe and sets its message or the default |
| `UseRecipes.RecipeShapesAgree` | src/hooks/useRecipes.js:83-92 | A recipe arrives the same wrapped or bare, when it has no `data` or `success` fields |
| `ShareButton.ShareUrl` | src/components/common/ShareButton.jsx:9-36 | Origin and path, then the recipe hash. The category is `makanan` only when the prop is not passed |
| `ShareButton.Fragment` | src/main.jsx:28 | `location.hash`: the URL from its first `#`, or empty when there is none or nothing follows it |
| `ShareButton.ShareUrlOpensRecipe` | src/components/common/ShareButton.jsx:36 | The shared link's hash parses back to the same recipe and category when both are slash-free and the category is non-empty |
| `ShareButton.EmptyCategoryOpensDefault` | src/main.jsx:35 | A link shared with an empty category opens in `makanan` |
| `ShareButton.NameOr` | src/components/common/ShareButton.jsx:42-43 | A missing or empty name is replaced by the fallback |
| `ShareButton.MakeShareData` | src/components/common/ShareButton.jsx:41-45 | The share sheet gets the link, the recipe's name as title (`Resep Nusantara` without one), and `Lihat resep <name> di Resep Nusantara` with `ini` standing in for a missing name |
| `ShareButton.ShareTextNamesRecipe` | src/components/common/ShareButton.jsx:43 | The recipe's name can be read back from the shared text between its fixed prefix and suffix |
| `ShareButton.HandleShare` | src/components/common/ShareButton.jsx:33-57 | The share sheet is offered exactly when it exists. The link is copied exactly when there is no share sheet or it fails with an error other than `AbortError` |
| `ShareButton.CopyToClipboard` | src/components/common/ShareButton.jsx:59-83 | "Copied" exactly when the clipboard write succeeds or the fallback copy does not throw. The fallback runs exactly when the write fails |
| `ShareButton.ShowsCopiedOnlyAfterCopy` | src/components/common/ShareButton.jsx:33-83 | A completed or dismissed native share never shows "copied". Without native share, a successful write does |
| `UploadService.ValidateUpload` | src/services/uploadService.js:12-27 | Passes exactly for a present file of an allowed type of at most 5 MiB. Presence is checked before type, and type before size, each failure with its own message |
| `UploadService.UploadImage` | src/services/uploadService.js:10-48 | As written it always rejects: with the failed check's message, or with the ReferenceError of the dead-zone `formData` read |
| `UploadService.UploadImageIntended` | src/services/uploadService.js:10-48 | A file that passes the checks is posted and the POST's outcome is returned |
| `UploadService.SizeLimitIsInclusive` | src/services/uploadService.js:23-27 | Exactly 5 MiB passes; one byte more is too large |
| `UploadService.ValidFileNeverPosted` | src/services/uploadService.js:29-31 | A valid PNG is rejected with the ReferenceError as written, but posted by the intended code |

## Left out

Not modelled at all:

- JSX rendering, class names, icons and `alert`/`console` output. `Render` only names the page shown and whether the navbars are drawn.
- The `debugInfo` counters of `loadUserReviews`.
- The `setTimeout` that resets "copied" after 2 seconds.
- `e.stopPropagation`.
- Effect wiring: the `useEffect` dependencies, `refetch`, listener registration and removal, and the `activeTab` trigger of the reviews load.
- Concurrency and timing:
  - `Promise.all` in `getFavoriteRecipes` is modelled as an in-order map; the result order is the same.
  - Storage events from other tabs are modelled only by their key; their ordering against this tab's writes is not modelled.
  - Races between async handlers are not modelled.
- `FileReader`, `URL.createObjectURL`/`revokeObjectURL`, `handleRemoveNewImage` and the user service's storage. These are browser and storage I/O; the model stops at the value handed to the service.
- The field-edit handlers (`handleChange`, `handleIngredientChange`, `handleStepChange`). They are plain assignments into form state.
- The `recipeService.updateRecipe` call and what follows it. `EditRecipe.Submit` ends with the payload it would send.
- The `recipeId` guard before `loadRecipe` is not modelled. `EditRecipe.LoadRecipe` takes the settled response.
- Percent-encoding of characters in `location.hash` is not modelled, and neither are ids or categories containing `/`.
- A storage blob holding JSON that is not an array of strings. In the source, a JSON string makes `includes` and `indexOf` match substrings, after which `splice` and `push` throw. A number, object or `null` makes every call throw. An array of non-strings never matches a string id.

Contracts and inputs that differ from the source:

- Profile.DrainCatalog: requires a ghost bound on every reported `total_pages`. The source loop has no bound and does not terminate when the service keeps reporting more pages.
- Profile.LoadUserReviews: carries the same bound as `DrainCatalog`.
- Profile.DrainFrom: is a fuel-bounded reference definition. It returns `None` when the fuel runs out.
- Profile.LoadUserReviews: pagination is reduced to its `total_pages` (`None` when absent). A non-numeric `total_pages` is not modelled.
- Profile.LoadUserReviews: recipes and reviews are typed records, so three error paths of the source are not modelled:
  - A `null` catalog entry. In the source, `recipe.id` throws inside the per-recipe `try`, and the `catch` reads `recipe.id` again for its log. That second error reaches the outer `catch`, so the whole load ends and the previous reviews stay.
  - A `null` entry in a review response's `data`. In the source, reading `review.user_identifier` in the filter throws. The per-recipe `catch` then drops that recipe's whole contribution, because nothing is pushed before the filter finishes.
  - A truthy page `data` that is not iterable, such as an object. In the source, the spread into `allRecipes` throws. The outer `catch` then ends the whole load.
- EditRecipe.FormOf, EditRecipe.LoadRecipe: numeric fields are read only from JSON integers. Numeric strings, fractions and `NaN` are not modelled. `parseInt` in the payload is the identity on them.
- EditRecipe.FormOf, EditRecipe.LoadRecipe: a truthy non-string name, category, description, difficulty or image URL reads as blank. In the source it would be kept, and a later `trim` would throw.
- EditRecipe.LoadRecipe: a rejected request reports the rejection value itself as the message.
- EditRecipe.FormOf, EditRecipe.LoadRecipe: `is_featured` is read as its truthiness. In the source the raw value is kept and later submitted, so a truthy non-boolean such as `"false"` is sent unchanged where the model sends `true`.
- EditRecipe.LoadIngredientList: a truthy non-string `name` or `quantity` of an ingredient reads as empty, so the payload drops that ingredient. In the source the value is kept, and the submit filter's `trim` then throws.
- Favorites.Toggle: always persists. In the source a throwing `localStorage.setItem` makes the call throw before the event is dispatched.
- Favorites.Add: always persists when the id is absent. In the source a throwing `setItem` is caught and the call returns `false` with no event.
- Favorites.Remove: always persists when the id is present. In the source a throwing `setItem` is caught and the call returns `false` with no event.
- Text.Trim: whitespace is the ASCII whitespace characters, vertical tab, form feed and no-break space. Other Unicode spaces and line terminators are not modelled.

## Findings

| source | as written | input that shows it | evidently intended | confidence | as-written member | corrected member |
|---|---|---|---|---|---|---|
| src/services/uploadService.js:29-31 | `formData.append('image', file)` runs one statement before `const formData = new FormData()`. Reading a `const` in its temporal dead zone throws a ReferenceError, which the catch block rethrows | any file of an allowed type up to 5 MiB, e.g. a 1024-byte `image/png` | create the form data, append the file, then POST it | high; not executed | `UploadService.UploadImage` (shown by `UploadService.ValidFileNeverPosted` and `EditRecipe.NewImageNeverSubmitted`) | `UploadService.UploadImageIntended` (shown by `EditRecipe.NewImageSubmittedWhenPosted`) |

=== FILE: edit_recipe.dfy ===
/** The form logic of `src/pages/EditRecipePage.jsx`: normalising the
    loaded recipe into form state, the add/remove operations on the
    ingredient and step lists, the image picker's checks, `validateForm`,
    and the payload `handleSubmit` sends to the recipe service. */
module EditRecipe {
  import opened Wrappers
  import opened Text
  import opened JsValues
  import opened UploadService

  datatype Ingredient = Ingredient(name: string, quantity: string)

  /** The form fields; the numeric ones are `None` when empty or unparsable */
  datatype RecipeForm = RecipeForm(
    name: string,
    category: string,
    description: string,
    prepTime: Option<int>,
    cookTime: Option<int>,
    servings: Option<int>,
    difficulty: string,
    isFeatured: bool)

  const BlankIngredient: Ingredient := Ingredient("", "")

  // Loading

  /** Why loading failed: the service's message, or a TypeError raised by
      reading a property of `null`/`undefined` or trimming a non-string */
  datatype LoadError = ServiceError(message: JsValue) | TypeError

  /** What a `loadRecipe` run did to the page state: each field is `Some`
      when its setter ran with that value and `None` when it was left as it
      was; `error` is the message set in the `catch` block, if any. The
      setters run one after another, so a TypeError in the ingredient or
      step mapping leaves the fields set before it in place. */
  datatype LoadOutcome = LoadOutcome(
    form: Option<RecipeForm>,
    currentImageUrl: Option<string>,
    ingredients: Option<seq<Ingredient>>,
    steps: Option<seq<string>>,
    error: Option<LoadError>)

  const DefaultCategory: string := "makanan"
  const DefaultDifficulty: string := "mudah"
  const LoadFailedMessage: string := "Gagal memuat data resep"

  /** A string field read with `value || default`; non-string values read as blank */
  function TextOr(v: JsValue, default: string): (r: string)
    ensures v.Str? && v.s != "" ==> r == v.s
    ensures !Truthy(v) ==> r == default
    ensures Truthy(v) && !v.Str? ==> r == ""
  {
    match Or(v, Str(default))
    case Str(s) => s
    case _ => ""
  }

  /** A numeric field read with `value || ''` */
  function NumberField(v: JsValue): (r: Option<int>)
    ensures r.Some? <==> v.Num? && Truthy(v)
    ensures r.Some? ==> r.value == v.n
  {
    match v
    case Num(n) => if n != 0 then Some(n) else None
    case _ => None
  }

  /** The text a loaded step maps to: an object's `instruction || step || ''`,
      a string as it is, anything else `''` (arrays are objects too) */
  function StepValue(step: JsValue): JsValue {
    match step
    case Str(_) => step
    case Obj(_) => Or(Or(Get(step, "instruction"), Get(step, "step")), Str(""))
    case Arr(_) => Str("")
    case _ => Str("")
  }

  /** The mapped steps as strings, reading a non-string as blank */
  function StepTexts(steps: seq<JsValue>): seq<string> {
    if steps == [] then []
    else [match StepValue(steps[0]) case Str(s) => s case _ => ""] + StepTexts(steps[1..])
  }

  /** The non-blank strings of a list, in order */
  function NonBlank(texts: seq<string>): seq<string> {
    if texts == [] then []
    else (if IsBlank(texts[0]) then [] else [texts[0]]) + NonBlank(texts[1..])
  }

  /** The mapped steps with blanks filtered out; `None` when some mapped
      value is not a string, on which `trim` throws */
  function NonBlankSteps(steps: seq<JsValue>): (r: Option<seq<string>>)
    ensures r.None? <==> exists k :: 0 <= k < |steps| && !StepValue(steps[k]).Str?
    ensures r.Some? ==> r.value == NonBlank(StepTexts(steps))
    ensures r.Some? ==> |r.value| <= |steps| && forall k :: 0 <= k < |r.value| ==> !IsBlank(r.value[k])
  {
    if steps == [] then Some([])
    else
      var tail := NonBlankSteps(steps[1..]);
      assert forall k :: 1 <= k < |steps| ==> steps[k] == steps[1..][k - 1];
      match StepValue(steps[0])
      case Str(s) =>
        (match tail
         case None => None
         case Some(rest) =>
           var texts := StepTexts(steps);
           assert texts[0] == s && texts[1..] == StepTexts(steps[1..]);
           Some((if IsBlank(s) then [] else [s]) + rest))
      case _ => None
  }

  /** Loaded steps: a non-empty array is mapped and filtered, and an empty
      result, like a missing or empty array, becomes one blank step */
  function LoadSteps(steps: JsValue): (r: Option<seq<string>>)
    ensures r.None? <==> steps.Arr? && exists k :: 0 <= k < |steps.items| && !StepValue(steps.items[k]).Str?
    ensures r.Some? && steps.Arr? && NonBlank(StepTexts(steps.items)) != [] ==> r.value == NonBlank(StepTexts(steps.items))
    ensures r.Some? && !(steps.Arr? && NonBlank(StepTexts(steps.items)) != []) ==> r.value == [""]
  {
    if Truthy(steps) && steps.Arr? && |steps.items| > 0 then
      match NonBlankSteps(steps.items)
      case None => None
      case Some(kept) => Some(if |kept| > 0 then kept else [""])
    else
      assert steps.Arr? ==> StepTexts(steps.items) == [];
      Some([""])
  }

  /** The pair an ingredient entry maps to */
  function IngredientOf(ing: JsValue): Ingredient {
    Ingredient(TextOr(Get(ing, "name"), ""), TextOr(Get(ing, "quantity"), ""))
  }

  /** `{name: ing.name || '', quantity: ing.quantity || ''}` over the array;
      a nullish entry throws */
  function LoadIngredientList(items: seq<JsValue>): (r: Option<seq<Ingredient>>)
    ensures r.None? <==> exists k :: 0 <= k < |items| && Nullish(items[k])
    ensures r.Some? ==> |r.value| == |items|
    ensures r.Some? ==> forall k :: 0 <= k < |items| ==>
      r.value[k].name == TextOr(Get(items[k], "name"), "") && r.value[k].quantity == TextOr(Get(items[k], "quantity"), "")
  {
    if items == [] then Some([])
    else
      assert forall k :: 1 <= k < |items| ==> items[k] == items[1..][k - 1];
      var first := items[0];
      match LoadIngredientList(items[1..])
      case Some(rest) => if Nullish(first) then None else Some([IngredientOf(first)] + rest)
      case None => None
  }

  /** Loaded ingredients: a missing or empty array becomes one blank pair */
  function LoadIngredients(ingredients: JsValue): (r: Option<seq<Ingredient>>)
    ensures ingredients.Arr? && |ingredients.items| > 0 ==> r == LoadIngredientList(ingredients.items)
    ensures !(ingredients.Arr? && |ingredients.items| > 0) ==> r == Some([BlankIngredient])
    ensures r.Some? ==> |r.value| >= 1
  {
    if Truthy(ingredients) && ingredients.Arr? && |ingredients.items| > 0 then LoadIngredientList(ingredients.items)
    else Some([BlankIngredient])
  }

  /** The form fields read from a recipe record: a string field is kept,
      or its default when falsy; a number is kept unless it is `0`; the
      featured flag is the field's truthiness */
  function FormOf(recipe: JsValue): (r: RecipeForm)
    ensures Get(recipe, "name").Str? ==> r.name == Get(recipe, "name").s
    ensures Get(recipe, "description").Str? ==> r.description == Get(recipe, "description").s
    ensures !Truthy(Get(recipe, "name")) ==> r.name == ""
    ensures !Truthy(Get(recipe, "description")) ==> r.description == ""
    ensures Truthy(Get(recipe, "category")) && Get(recipe, "category").Str? ==> r.category == Get(recipe, "category").s
    ensures !Truthy(Get(recipe, "category")) ==> r.category == DefaultCategory
    ensures Truthy(Get(recipe, "difficulty")) && Get(recipe, "difficulty").Str? ==> r.difficulty == Get(recipe, "difficulty").s
    ensures !Truthy(Get(recipe, "difficulty")) ==> r.difficulty == DefaultDifficulty
    ensures r.prepTime.Some? <==> Get(recipe, "prep_time").Num? && Truthy(Get(recipe, "prep_time"))
    ensures r.cookTime.Some? <==> Get(recipe, "cook_time").Num? && Truthy(Get(recipe, "cook_time"))
    ensures r.servings.Some? <==> Get(recipe, "servings").Num? && Truthy(Get(recipe, "servings"))
    ensures r.isFeatured <==> Truthy(Get(recipe, "is_featured"))
  {
    RecipeForm(
      TextOr(Get(recipe, "name"), ""),
      TextOr(Get(recipe, "category"), DefaultCategory),
      TextOr(Get(recipe, "description"), ""),
      NumberField(Get(recipe, "prep_time")),
      NumberField(Get(recipe, "cook_time")),
      NumberField(Get(recipe, "servings")),
      TextOr(Get(recipe, "difficulty"), DefaultDifficulty),
      Truthy(Or(Get(recipe, "is_featured"), Bool(false))))
  }

  /** `loadRecipe`: the service's response (or its rejection) turned into
      updates of the form state */
  function LoadRecipe(response: Result<JsValue, JsValue>): (r: LoadOutcome)
    ensures r.error.None? <==> r.steps.Some?
    ensures r.steps.Some? ==> r.ingredients.Some?
    ensures r.ingredients.Some? ==> r.form.Some? && r.currentImageUrl.Some?
    ensures r.ingredients.Some? ==> |r.ingredients.value| >= 1
    ensures r.steps.Some? ==> |r.steps.value| >= 1
    ensures response.Failure? ==> r == LoadOutcome(None, None, None, None, Some(ServiceError(response.error)))
    ensures response.Success? && !Nullish(response.value) && !Truthy(Get(response.value, "success")) ==>
      r == LoadOutcome(None, None, None, None,
                       Some(ServiceError(Or(Get(response.value, "message"), Str(LoadFailedMessage)))))
    ensures r.form.Some? ==>
      && response.Success? && Truthy(Get(response.value, "success"))
      && var recipe := Get(response.value, "data");
      && !Nullish(recipe)
      && r.form.value.name == TextOr(Get(recipe, "name"), "")
      && r.form.value.category == TextOr(Get(recipe, "category"), DefaultCategory)
      && r.form.value.description == TextOr(Get(recipe, "description"), "")
      && r.form.value.prepTime == NumberField(Get(recipe, "prep_time"))
      && r.form.value.cookTime == NumberField(Get(recipe, "cook_time"))
      && r.form.value.servings == NumberField(Get(recipe, "servings"))
      && r.form.value.difficulty == TextOr(Get(recipe, "difficulty"), DefaultDifficulty)
      && r.form.value.isFeatured == Truthy(Get(recipe, "is_featured"))
      && r.currentImageUrl == Some(TextOr(Get(recipe, "image_url"), ""))
      && r.ingredients == LoadIngredients(Get(recipe, "ingredients"))
      && (r.ingredients.Some? ==> r.steps == LoadSteps(Get(recipe, "steps")))
    ensures response.Success? && Truthy(Get(response.value, "success")) && !Nullish(Get(response.value, "data")) ==> r.form.Some?
    ensures r.error == Some(TypeError) <==>
      response.Success? && (Nullish(response.value) || (Truthy(Get(response.value, "success")) && r.steps.None?))
  {
    match response
    case Failure(reason) => LoadOutcome(None, None, None, None, Some(ServiceError(reason)))
    case Success(result) =>
      if Nullish(result) then LoadOutcome(None, None, None, None, Some(TypeError))
      else if !Truthy(Get(result, "success")) then
        LoadOutcome(None, None, None, None, Some(ServiceError(Or(Get(result, "message"), Str(LoadFailedMessage)))))
      else
        var recipe := Get(result, "data");
        if Nullish(recipe) then LoadOutcome(None, None, None, None, Some(TypeError))
        else
          var form := Some(FormOf(recipe));
          var imageUrl := Some(TextOr(Get(recipe, "image_url"), ""));
          match LoadIngredients(Get(recipe, "ingredients"))
          case None => LoadOutcome(form, imageUrl, None, None, Some(TypeError))
          case Some(ingredients) =>
            match LoadSteps(Get(recipe, "steps"))
            case None => LoadOutcome(form, imageUrl, Some(ingredients), None, Some(TypeError))
            case Some(steps) => LoadOutcome(form, imageUrl, Some(ingredients), Some(steps), None)
  }

  // Loading what the form would save

  /** A string as the API returns it */
  function StepRecords(texts: seq<string>): (r: seq<JsValue>)
    ensures |r| == |texts|
  {
    if texts == [] then [] else [Str(texts[0])] + StepRecords(texts[1..])
  }

  /** An ingredient as the API returns it */
  function IngredientRecord(ing: Ingredient): JsValue {
    Obj(map["name" := Str(ing.name), "quantity" := Str(ing.quantity)])
  }

  function IngredientRecords(ingredients: seq<Ingredient>): (r: seq<JsValue>)
    ensures |r| == |ingredients|
  {
    if ingredients == [] then [] else [IngredientRecord(ingredients[0])] + IngredientRecords(ingredients[1..])
  }

  /** An optional number as the API returns it */
  function NumberRecord(n: Option<int>): JsValue {
    match n
    case Some(v) => Num(v)
    case None => Null
  }

  /** A recipe record with these fields, as the API returns it */
  function RecipeRecord(form: RecipeForm, imageUrl: string, ingredients: seq<Ingredient>, steps: seq<string>): JsValue {
    Obj(map[
      "name" := Str(form.name),
      "category" := Str(form.category),
      "description" := Str(form.description),
      "prep_time" := NumberRecord(form.prepTime),
      "cook_time" := NumberRecord(form.cookTime),
      "servings" := NumberRecord(form.servings),
      "difficulty" := Str(form.difficulty),
      "is_featured" := Bool(form.isFeatured),
      "image_url" := Str(imageUrl),
      "ingredients" := Arr(IngredientRecords(ingredients)),
      "steps" := Arr(StepRecords(steps))])
  }

  /** The successful `getRecipeById` response carrying a record */
  function RecipeResponse(recipe: JsValue): JsValue {
    Obj(map["success" := Bool(true), "data" := recipe])
  }

  /** Each field of the record reads back as stored */
  lemma RecordFields(form: RecipeForm, imageUrl: string, ingredients: seq<Ingredient>, steps: seq<string>)
    ensures var recipe := RecipeRecord(form, imageUrl, ingredients, steps);
      && Get(recipe, "name") == Str(form.name)
      && Get(recipe, "category") == Str(form.category)
      && Get(recipe, "description") == Str(form.description)
      && Get(recipe, "prep_time") == NumberRecord(form.prepTime)
      && Get(recipe, "cook_time") == NumberRecord(form.cookTime)
      && Get(recipe, "servings") == NumberRecord(form.servings)
      && Get(recipe, "difficulty") == Str(form.difficulty)
      && Get(recipe, "is_featured") == Bool(form.isFeatured)
      && Get(recipe, "image_url") == Str(imageUrl)
      && Get(recipe, "ingredients") == Arr(IngredientRecords(ingredients))
      && Get(recipe, "steps") == Arr(StepRecords(steps))
  {
  }

  /** The record's fields read back into the form */
  lemma RecordFormFields(form: RecipeForm, imageUrl: string, ingredients: seq<Ingredient>, steps: seq<string>)
    requires form.category != "" && form.difficulty != ""
    requires form.prepTime != Some(0) && form.cookTime != Some(0) && form.servings != Some(0)
    ensures var recipe := RecipeRecord(form, imageUrl, ingredients, steps);
      && FormOf(recipe) == form
      && TextOr(Get(recipe, "image_url"), "") == imageUrl
      && Get(recipe, "ingredients") == Arr(IngredientRecords(ingredients))
      && Get(recipe, "steps") == Arr(StepRecords(steps))
  {
    RecordFields(form, imageUrl, ingredients, steps);
  }

  /** Loading a list of plain strings keeps exactly the non-blank ones, in
      order */
  lemma {:induction false} StringStepsKeepNonBlank(texts: seq<string>)
    ensures NonBlankSteps(StepRecords(texts)) == Some(NonBlank(texts))
  {
    if texts != [] {
      var steps := StepRecords(texts);
      StringStepsKeepNonBlank(texts[1..]);
      assert steps[0] == Str(texts[0]) && steps[1..] == StepRecords(texts[1..]);
    }
  }

  /** Non-blank strings all survive the filter */
  lemma {:induction false} NonBlankKeepsNonBlank(texts: seq<string>)
    requires forall k :: 0 <= k < |texts| ==> !IsBlank(texts[k])
    ensures NonBlank(texts) == texts
  {
    if texts != [] {
      NonBlankKeepsNonBlank(texts[1..]);
      assert texts == [texts[0]] + texts[1..];
    }
  }

  /** One ingredient record reads back as the pair it was made from */
  lemma IngredientRecordReads(ing: Ingredient)
    ensures !Nullish(IngredientRecord(ing)) && IngredientOf(IngredientRecord(ing)) == ing
  {
    assert Get(IngredientRecord(ing), "name") == Str(ing.name);
    assert Get(IngredientRecord(ing), "quantity") == Str(ing.quantity);
  }

  /** Ingredient records load back to the same pairs */
  lemma {:induction false} IngredientRecordsLoad(ingredients: seq<Ingredient>)
    ensures LoadIngredientList(IngredientRecords(ingredients)) == Some(ingredients)
  {
    if ingredients != [] {
      var items := IngredientRecords(ingredients);
      var ing := ingredients[0];
      IngredientRecordsLoad(ingredients[1..]);
      IngredientRecordReads(ing);
      assert items[0] == IngredientRecord(ing) && items[1..] == IngredientRecords(ingredients[1..]);
      assert LoadIngredientList(items) == Some([ing] + ingredients[1..]);
      assert ingredients == [ing] + ingredients[1..];
    }
  }

  /** Loading a recipe whose fields the form can hold fills the form with
      exactly those fields: no default replaces a present value, nothing is
      lost, and the error stays clear */
  lemma LoadRecipeRoundTrip(form: RecipeForm, imageUrl: string, ingredients: seq<Ingredient>, steps: seq<string>)
    requires form.category != "" && form.difficulty != ""
    requires form.prepTime != Some(0) && form.cookTime != Some(0) && form.servings != Some(0)
    requires |ingredients| >= 1 && |steps| >= 1
    requires forall k :: 0 <= k < |steps| ==> !IsBlank(steps[k])
    ensures LoadRecipe(Success(RecipeResponse(RecipeRecord(form, imageUrl, ingredients, steps))))
         == LoadOutcome(Some(form), Some(imageUrl), Some(ingredients), Some(steps), None)
  {
    var recipe := RecipeRecord(form, imageUrl, ingredients, steps);
    var response := RecipeResponse(recipe);
    assert Get(response, "success") == Bool(true) && Get(response, "data") == recipe;
    RecordFormFields(form, imageUrl, ingredients, steps);
    IngredientRecordsLoad(ingredients);
    assert LoadIngredients(Get(recipe, "ingredients")) == Some(ingredients);
    StringStepsKeepNonBlank(steps);
    NonBlankKeepsNonBlank(steps);
    assert LoadSteps(Get(recipe, "steps")) == Some(steps);
  }

  // List editing

  /** `addIngredient` / `addStep`: one blank entry appended */
  function AddEntry<T>(entries: seq<T>, blank: T): (r: seq<T>)
    ensures |r| == |entries| + 1 && r[..|entries|] == entries && r[|entries|] == blank
  {
    entries + [blank]
  }

  /** `removeIngredient` / `removeStep`: a one-entry list is left alone;
      otherwise the entry at `index` is dropped (an index outside the list
      drops nothing) */
  function RemoveEntry<T>(entries: seq<T>, index: int): (r: seq<T>)
    ensures |entries| <= 1 ==> r == entries
    ensures |entries| > 1 && 0 <= index < |entries| ==>
      && |r| == |entries| - 1
      && (forall k :: 0 <= k < index ==> r[k] == entries[k])
      && (forall k :: index <= k < |r| ==> r[k] == entries[k + 1])
    ensures |entries| > 1 && !(0 <= index < |entries|) ==> r == entries
    ensures |entries| >= 1 ==> |r| >= 1
  {
    if |entries| > 1 && 0 <= index < |entries| then entries[..index] + entries[index + 1..]
    else entries
  }

  // The image picker

  datatype ImageChange = NoImageChange | ImageRejected(message: string) | ImageAccepted(file: ImageFile)

  const ImageTooLargeMessage: string := "Ukuran file maksimal 5MB"
  const ImageTypeMessage: string := "Format file harus .jpg, .jpeg, .png, atau .webp"

  /** `handleImageChange`: the size check comes before the type check; an
      accepted file becomes the new image and clears the error */
  function ImageChangeDecision(file: Option<ImageFile>): (r: ImageChange)
    ensures r.ImageAccepted? <==> file.Some? && file.value.size <= MaxImageBytes && file.value.mimeType in AllowedImageTypes
    ensures r.ImageAccepted? ==> r.file == file.value
    ensures file.None? ==> r == NoImageChange
    ensures file.Some? && file.value.size > MaxImageBytes ==> r == ImageRejected(ImageTooLargeMessage)
    ensures file.Some? && file.value.size <= MaxImageBytes && file.value.mimeType !in AllowedImageTypes ==>
      r == ImageRejected(ImageTypeMessage)
  {
    match file
    case None => NoImageChange
    case Some(f) =>
      if f.size > MaxImageBytes then ImageRejected(ImageTooLargeMessage)
      else if f.mimeType !in AllowedImageTypes then ImageRejected(ImageTypeMessage)
      else ImageAccepted(f)
  }

  /** The page and the upload service check the same two conditions in
      opposite orders: a file both too large and of the wrong type is
      reported as too large here and as mistyped there */
  lemma CheckOrderDiffers()
    ensures var f := ImageFile(MaxImageBytes + 1, "image/gif");
      && ImageChangeDecision(Some(f)) == ImageRejected(ImageTooLargeMessage)
      && ValidateUpload(Some(f)) == Some(InvalidTypeMessage)
  {
  }

  // Validation

  /** An ingredient with a non-blank name and a non-blank quantity */
  predicate IsValidIngredient(ing: Ingredient) {
    !IsBlank(ing.name) && !IsBlank(ing.quantity)
  }

  /** Some ingredient is valid */
  predicate AnyValidIngredient(ingredients: seq<Ingredient>) {
    ingredients != [] && (IsValidIngredient(ingredients[0]) || AnyValidIngredient(ingredients[1..]))
  }

  /** Some step is not blank */
  predicate AnyNonBlankStep(steps: seq<string>) {
    steps != [] && (!IsBlank(steps[0]) || AnyNonBlankStep(steps[1..]))
  }

  /** `!value || value <= 0` fails the check */
  predicate Positive(value: Option<int>) {
    value.Some? && value.value > 0
  }

  datatype Check = Check(passes: bool, message: string)

  const NameRequiredMessage: string := "Nama resep wajib diisi"
  const NameTooShortMessage: string := "Nama resep minimal 3 karakter"
  const PrepTimeMessage: string := "Waktu persiapan harus lebih dari 0"
  const CookTimeMessage: string := "Waktu memasak harus lebih dari 0"
  const ServingsMessage: string := "Jumlah porsi harus lebih dari 0"
  const IngredientsMessage: string := "Minimal harus ada 1 bahan dengan nama dan jumlah yang valid"
  const StepsMessage: string := "Minimal harus ada 1 langkah yang valid"
  const ImageRequiredMessage: string := "Resep harus memiliki gambar"

  /** The checks of `validateForm`, in the order it makes them */
  function Checks(form: RecipeForm, ingredients: seq<Ingredient>, steps: seq<string>,
                  currentImageUrl: string, hasNewImage: bool): seq<Check>
  {
    [ Check(!IsBlank(form.name), NameRequiredMessage),
      Check(Utf16Length(Trim(form.name)) >= 3, NameTooShortMessage),
      Check(Positive(form.prepTime), PrepTimeMessage),
      Check(Positive(form.cookTime), CookTimeMessage),
      Check(Positive(form.servings), ServingsMessage),
      Check(AnyValidIngredient(ingredients), IngredientsMessage),
      Check(AnyNonBlankStep(steps), StepsMessage),
      Check(currentImageUrl != "" || hasNewImage, ImageRequiredMessage) ]
  }

  /** The message of the first failing check, if any */
  function FirstFailure(checks: seq<Check>): Option<string> {
    if checks == [] then None
    else if !checks[0].passes then Some(checks[0].message)
    else FirstFailure(checks[1..])
  }

  /** `FirstFailure` finds nothing exactly when every check passes, and
      otherwise reports a failing check before which every check passes */
  lemma {:induction false} FirstFailureIsFirst(checks: seq<Check>)
    ensures FirstFailure(checks).None? <==> forall i :: 0 <= i < |checks| ==> checks[i].passes
    ensures FirstFailure(checks).Some? ==>
      exists i :: 0 <= i < |checks| && !checks[i].passes && FirstFailure(checks).value == checks[i].message
                  && forall j :: 0 <= j < i ==> checks[j].passes
  {
    if checks != [] && checks[0].passes {
      var rest := checks[1..];
      FirstFailureIsFirst(rest);
      assert forall i :: 1 <= i < |checks| ==> checks[i] == rest[i - 1];
      if FirstFailure(rest).Some? {
        var i :| 0 <= i < |rest| && !rest[i].passes && FirstFailure(rest).value == rest[i].message
                 && forall j :: 0 <= j < i ==> rest[j].passes;
        assert forall j :: 0 <= j < i + 1 ==> checks[j].passes by {
          forall j | 0 <= j < i + 1 ensures checks[j].passes {
            if j > 0 { assert checks[j] == rest[j - 1]; }
          }
        }
      }
    }
  }

  datatype Validation = Valid | Invalid(message: string)

  /** `validateForm`: valid exactly when every condition holds */
  function ValidateForm(form: RecipeForm, ingredients: seq<Ingredient>, steps: seq<string>,
                        currentImageUrl: string, hasNewImage: bool): (r: Validation)
    ensures r.Valid? <==>
      && Utf16Length(Trim(form.name)) >= 3
      && Positive(form.prepTime) && Positive(form.cookTime) && Positive(form.servings)
      && AnyValidIngredient(ingredients) && AnyNonBlankStep(steps)
      && (currentImageUrl != "" || hasNewImage)
  {
    var name := Trim(form.name);
    if name == [] then Invalid(NameRequiredMessage)
    else if Utf16Length(name) < 3 then Invalid(NameTooShortMessage)
    else if !Positive(form.prepTime) then Invalid(PrepTimeMessage)
    else if !Positive(form.cookTime) then Invalid(CookTimeMessage)
    else if !Positive(form.servings) then Invalid(ServingsMessage)
    else if |CleanIngredients(ingredients)| == 0 then Invalid(IngredientsMessage)
    else if |CleanSteps(steps)| == 0 then Invalid(StepsMessage)
    else if currentImageUrl == "" && !hasNewImage then Invalid(ImageRequiredMessage)
    else Valid
  }

  /** A failing check before which every check passes is the one reported */
  lemma {:induction false} FirstFailureAt(checks: seq<Check>, i: nat)
    requires i < |checks| && !checks[i].passes
    requires forall j :: 0 <= j < i ==> checks[j].passes
    ensures FirstFailure(checks) == Some(checks[i].message)
  {
    if i > 0 {
      assert forall j :: 0 <= j < i - 1 ==> checks[1..][j] == checks[j + 1];
      FirstFailureAt(checks[1..], i - 1);
    }
  }

  /** The error `validateForm` reports is the message of the first check,
      in the order listed, that fails */
  lemma ValidateFormReportsFirstFailure(form: RecipeForm, ingredients: seq<Ingredient>, steps: seq<string>,
                                        currentImageUrl: string, hasNewImage: bool)
    ensures var r := ValidateForm(form, ingredients, steps, currentImageUrl, hasNewImage);
      var first := FirstFailure(Checks(form, ingredients, steps, currentImageUrl, hasNewImage));
      && (r.Valid? <==> first.None?)
      && (r.Invalid? ==> first == Some(r.message))
  {
    var checks := Checks(form, ingredients, steps, currentImageUrl, hasNewImage);
    FirstFailureOfEight(checks);
    ValidateFormIsChain(form, ingredients, steps, currentImageUrl, hasNewImage);
  }

  /** The scan over eight checks, written out as a chain */
  lemma FirstFailureOfEight(c: seq<Check>)
    requires |c| == 8
    ensures FirstFailure(c)
         == if !c[0].passes then Some(c[0].message)
            else if !c[1].passes then Some(c[1].message)
            else if !c[2].passes then Some(c[2].message)
            else if !c[3].passes then Some(c[3].message)
            else if !c[4].passes then Some(c[4].message)
            else if !c[5].passes then Some(c[5].message)
            else if !c[6].passes then Some(c[6].message)
            else if !c[7].passes then Some(c[7].message)
            else None
  {
    if !c[0].passes { FirstFailureAt(c, 0); }
    else if !c[1].passes { FirstFailureAt(c, 1); }
    else if !c[2].passes { FirstFailureAt(c, 2); }
    else if !c[3].passes { FirstFailureAt(c, 3); }
    else if !c[4].passes { FirstFailureAt(c, 4); }
    else if !c[5].passes { FirstFailureAt(c, 5); }
    else if !c[6].passes { FirstFailureAt(c, 6); }
    else if !c[7].passes { FirstFailureAt(c, 7); }
    else { FirstFailureIsFirst(c); }
  }

  /** `validateForm` as the same chain over its eight checks */
  lemma ValidateFormIsChain(form: RecipeForm, ingredients: seq<Ingredient>, steps: seq<string>,
                            currentImageUrl: string, hasNewImage: bool)
    ensures var c := Checks(form, ingredients, steps, currentImageUrl, hasNewImage);
      && |c| == 8
      && ValidateForm(form, ingredients, steps, currentImageUrl, hasNewImage)
         == if !c[0].passes then Invalid(c[0].message)
            else if !c[1].passes then Invalid(c[1].message)
            else if !c[2].passes then Invalid(c[2].message)
            else if !c[3].passes then Invalid(c[3].message)
            else if !c[4].passes then Invalid(c[4].message)
            else if !c[5].passes then Invalid(c[5].message)
            else if !c[6].passes then Invalid(c[6].message)
            else if !c[7].passes then Invalid(c[7].message)
            else Valid
  {
    ChecksPass(form, ingredients, steps, currentImageUrl, hasNewImage);
    ValidateFormCases(form, ingredients, steps, currentImageUrl, hasNewImage);
  }

  /** What each of the eight checks tests, and the message it carries */
  lemma ChecksPass(form: RecipeForm, ingredients: seq<Ingredient>, steps: seq<string>,
                   currentImageUrl: string, hasNewImage: bool)
    ensures var checks := Checks(form, ingredients, steps, currentImageUrl, hasNewImage);
      && |checks| == 8
      && checks[0] == Check(Trim(form.name) != [], NameRequiredMessage)
      && checks[1] == Check(Utf16Length(Trim(form.name)) >= 3, NameTooShortMessage)
      && checks[2] == Check(Positive(form.prepTime), PrepTimeMessage)
      && checks[3] == Check(Positive(form.cookTime), CookTimeMessage)
      && checks[4] == Check(Positive(form.servings), ServingsMessage)
      && checks[5] == Check(AnyValidIngredient(ingredients), IngredientsMessage)
      && checks[6] == Check(AnyNonBlankStep(steps), StepsMessage)
      && checks[7] == Check(currentImageUrl != "" || hasNewImage, ImageRequiredMessage)
  {
  }

  /** `validateForm` as a chain of the same conditions, in the same order */
  lemma ValidateFormCases(form: RecipeForm, ingredients: seq<Ingredient>, steps: seq<string>,
                          currentImageUrl: string, hasNewImage: bool)
    ensures ValidateForm(form, ingredients, steps, currentImageUrl, hasNewImage)
         == if Trim(form.name) == [] then Invalid(NameRequiredMessage)
            else if Utf16Length(Trim(form.name)) < 3 then Invalid(NameTooShortMessage)
            else if !Positive(form.prepTime) then Invalid(PrepTimeMessage)
            else if !Positive(form.cookTime) then Invalid(CookTimeMessage)
            else if !Positive(form.servings) then Invalid(ServingsMessage)
            else if !AnyValidIngredient(ingredients) then Invalid(IngredientsMessage)
            else if !AnyNonBlankStep(steps) then Invalid(StepsMessage)
            else if currentImageUrl == "" && !hasNewImage then Invalid(ImageRequiredMessage)
            else Valid
  {
    assert |CleanIngredients(ingredients)| == 0 <==> !AnyValidIngredient(ingredients);
    assert |CleanSteps(steps)| == 0 <==> !AnyNonBlankStep(steps);
  }

  /** A name of two characters outside the Basic Multilingual Plane is four
      UTF-16 code units long, so it passes both name checks */
  lemma SurrogatePairNameIsLongEnough(form: RecipeForm, ingredients: seq<Ingredient>, steps: seq<string>,
                                      currentImageUrl: string, hasNewImage: bool)
    requires form.name == "\U{1F600}\U{1F600}"
    ensures Utf16Length(Trim(form.name)) == 4
    ensures var r := ValidateForm(form, ingredients, steps, currentImageUrl, hasNewImage);
      r != Invalid(NameRequiredMessage) && r != Invalid(NameTooShortMessage)
  {
    assert !IsSpace(form.name[0]) && !IsSpace(form.name[1]);
    TrimOfTrimmed(form.name);
    assert form.name[1..][1..] == [];
  }

  // The payload

  /** A valid ingredient whose two fields are already trimmed */
  predicate IsCleanIngredient(ing: Ingredient) {
    ing.name != "" && ing.quantity != "" && IsTrimmed(ing.name) && IsTrimmed(ing.quantity)
  }

  /** A valid ingredient with both fields trimmed */
  function CleanIngredient(ing: Ingredient): (r: Ingredient)
    requires IsValidIngredient(ing)
    ensures IsCleanIngredient(r)
    ensures r.name == Trim(ing.name) && r.quantity == Trim(ing.quantity)
  {
    Ingredient(Trim(ing.name), Trim(ing.quantity))
  }

  /** The valid ingredients, trimmed, in their original order */
  function CleanIngredients(ingredients: seq<Ingredient>): (r: seq<Ingredient>)
    ensures |r| <= |ingredients|
    ensures |r| > 0 <==> AnyValidIngredient(ingredients)
    ensures forall k :: 0 <= k < |r| ==> IsCleanIngredient(r[k])
  {
    if ingredients == [] then []
    else
      var ing := ingredients[0];
      var tail := CleanIngredients(ingredients[1..]);
      if IsValidIngredient(ing) then
        [CleanIngredient(ing)] + tail
      else tail
  }

  /** The non-blank steps, trimmed, in their original order */
  function CleanSteps(steps: seq<string>): (r: seq<string>)
    ensures |r| <= |steps|
    ensures |r| > 0 <==> AnyNonBlankStep(steps)
    ensures forall k :: 0 <= k < |r| ==> r[k] != "" && IsTrimmed(r[k])
  {
    if steps == [] then []
    else
      var tail := CleanSteps(steps[1..]);
      if !IsBlank(steps[0]) then [Trim(steps[0])] + tail else tail
  }

  /** Cleaning a concatenation cleans each part in turn, so the payload
      keeps the form's order */
  lemma {:induction false} CleanIngredientsAppend(a: seq<Ingredient>, b: seq<Ingredient>)
    ensures CleanIngredients(a + b) == CleanIngredients(a) + CleanIngredients(b)
  {
    if a == [] {
      assert a + b == b;
    } else {
      assert (a + b)[0] == a[0] && (a + b)[1..] == a[1..] + b;
      CleanIngredientsAppend(a[1..], b);
    }
  }

  lemma {:induction false} CleanStepsAppend(a: seq<string>, b: seq<string>)
    ensures CleanSteps(a + b) == CleanSteps(a) + CleanSteps(b)
  {
    if a == [] {
      assert a + b == b;
    } else {
      assert (a + b)[0] == a[0] && (a + b)[1..] == a[1..] + b;
      CleanStepsAppend(a[1..], b);
    }
  }

  /** One ingredient is kept, with both fields trimmed, exactly when it is
      valid; with `CleanIngredientsAppend` this fixes every cleaned list */
  lemma CleanIngredientsSingle(ing: Ingredient)
    ensures CleanIngredients([ing])
         == if IsValidIngredient(ing) then [Ingredient(Trim(ing.name), Trim(ing.quantity))] else []
  {
    assert [ing][1..] == [];
  }

  /** One step is kept, trimmed, exactly when it is not blank; with
      `CleanStepsAppend` this fixes every cleaned list */
  lemma CleanStepsSingle(step: string)
    ensures CleanSteps([step]) == if IsBlank(step) then [] else [Trim(step)]
  {
    assert [step][1..] == [];
  }

  /** Entries that are already valid and trimmed are submitted unchanged */
  lemma {:induction false} CleanKeepsCleanIngredients(ingredients: seq<Ingredient>)
    requires forall k :: 0 <= k < |ingredients| ==> IsCleanIngredient(ingredients[k])
    ensures CleanIngredients(ingredients) == ingredients
  {
    if ingredients != [] {
      var ing := ingredients[0];
      CleanKeepsCleanIngredients(ingredients[1..]);
      TrimOfTrimmed(ing.name);
      TrimOfTrimmed(ing.quantity);
      assert IsValidIngredient(ing);
      assert CleanIngredient(ing) == ing;
      assert ingredients == [ing] + ingredients[1..];
    }
  }

  lemma {:induction false} CleanKeepsCleanSteps(steps: seq<string>)
    requires forall k :: 0 <= k < |steps| ==> steps[k] != "" && IsTrimmed(steps[k])
    ensures CleanSteps(steps) == steps
  {
    if steps != [] {
      CleanKeepsCleanSteps(steps[1..]);
      TrimOfTrimmed(steps[0]);
      assert !IsBlank(steps[0]);
      assert steps == [steps[0]] + steps[1..];
    }
  }

  /** Cleaning what was already cleaned changes nothing */
  lemma CleanIdempotent(ingredients: seq<Ingredient>, steps: seq<string>)
    ensures CleanIngredients(CleanIngredients(ingredients)) == CleanIngredients(ingredients)
    ensures CleanSteps(CleanSteps(steps)) == CleanSteps(steps)
  {
    CleanKeepsCleanIngredients(CleanIngredients(ingredients));
    CleanKeepsCleanSteps(CleanSteps(steps));
  }

  /** The object sent to `recipeService.updateRecipe` */
  datatype UpdatePayload = UpdatePayload(
    name: string,
    category: string,
    description: string,
    imageUrl: string,
    prepTime: Option<int>,
    cookTime: Option<int>,
    servings: Option<int>,
    difficulty: string,
    isFeatured: bool,
    ingredients: seq<Ingredient>,
    steps: seq<string>)

  datatype SubmitOutcome =
    | SubmitRejected(message: string)
    | SubmitFailed(message: string)
    | Submitted(payload: UpdatePayload)

  const DefaultSubmitError: string := "Terjadi kesalahan saat memperbarui resep"
  const UploadFailedPrefix: string := "Gagal upload gambar: "
  const UnknownUploadError: string := "Unknown error"
  const ImageUrlRequiredMessage: string := "Image URL is required"

  /** `handleSubmit` up to the update call: validate; upload the new image
      if one was chosen, otherwise keep the current URL; refuse an empty
      URL; build the payload from the trimmed, valid entries */
  function Submit(form: RecipeForm, ingredients: seq<Ingredient>, steps: seq<string>,
                  currentImageUrl: string, imageFile: Option<ImageFile>,
                  upload: Option<ImageFile> -> Result<UploadReply, string>): (r: SubmitOutcome)
    ensures ValidateForm(form, ingredients, steps, currentImageUrl, imageFile.Some?).Invalid? <==> r.SubmitRejected?
    ensures r.SubmitRejected? ==> r.message == ValidateForm(form, ingredients, steps, currentImageUrl, imageFile.Some?).message
    ensures r.Submitted? ==>
      && r.payload.imageUrl != ""
      && (imageFile.None? ==> r.payload.imageUrl == currentImageUrl)
      && (imageFile.Some? ==> upload(imageFile).Success? && upload(imageFile).value.success
                              && r.payload.imageUrl == upload(imageFile).value.url)
      && r.payload.name == Trim(form.name) && Utf16Length(r.payload.name) >= 3
      && r.payload.category == form.category && r.payload.description == Trim(form.description)
      && r.payload.prepTime == form.prepTime && r.payload.cookTime == form.cookTime && r.payload.servings == form.servings
      && Positive(r.payload.prepTime) && Positive(r.payload.cookTime) && Positive(r.payload.servings)
      && r.payload.difficulty == form.difficulty && r.payload.isFeatured == form.isFeatured
      && r.payload.ingredients == CleanIngredients(ingredients) && |r.payload.ingredients| >= 1
      && r.payload.steps == CleanSteps(steps) && |r.payload.steps| >= 1
    ensures imageFile.None? && r.SubmitFailed? ==> currentImageUrl == ""
    ensures ValidateForm(form, ingredients, steps, currentImageUrl, imageFile.Some?).Valid? ==>
      && (imageFile.None? && currentImageUrl == "" ==> r == SubmitFailed(ImageUrlRequiredMessage))
      && (imageFile.None? && currentImageUrl != "" ==> r.Submitted?)
      && (imageFile.Some? && upload(imageFile).Failure? ==>
            r == SubmitFailed(if upload(imageFile).error != "" then upload(imageFile).error else DefaultSubmitError))
      && (imageFile.Some? && upload(imageFile).Success? && !upload(imageFile).value.success ==>
            r == SubmitFailed(UploadFailedPrefix + (if upload(imageFile).value.error != "" then upload(imageFile).value.error
                                                    else UnknownUploadError)))
      && (imageFile.Some? && upload(imageFile).Success? && upload(imageFile).value.success ==>
            (r.Submitted? <==> upload(imageFile).value.url != "")
            && (upload(imageFile).value.url == "" ==> r == SubmitFailed(ImageUrlRequiredMessage)))
  {
    match ValidateForm(form, ingredients, steps, currentImageUrl, imageFile.Some?)
    case Invalid(message) => SubmitRejected(message)
    case Valid =>
      var image: Result<string, string> :=
        if imageFile.None? then Success(currentImageUrl)
        else match upload(imageFile)
          case Failure(message) => Failure(if message != "" then message else DefaultSubmitError)
          case Success(reply) =>
            if reply.success then Success(reply.url)
            else Failure(UploadFailedPrefix + (if reply.error != "" then reply.error else UnknownUploadError));
      match image
      case Failure(message) => SubmitFailed(message)
      case Success(url) =>
        if url == "" then SubmitFailed(ImageUrlRequiredMessage)
        else Submitted(UpdatePayload(
          Trim(form.name), form.category, Trim(form.description), url,
          form.prepTime, form.cookTime, form.servings, form.difficulty, form.isFeatured,
          CleanIngredients(ingredients), CleanSteps(steps)))
  }

  /** With the upload service as written, choosing a new image always ends
      in the ReferenceError, so the recipe is never updated */
  lemma NewImageNeverSubmitted(form: RecipeForm, ingredients: seq<Ingredient>, steps: seq<string>,
                               currentImageUrl: string, file: ImageFile, post: Post)
    requires ValidateForm(form, ingredients, steps, currentImageUrl, true).Valid?
    ensures !Submit(form, ingredients, steps, currentImageUrl, Some(file), f => UploadImage(f, post)).Submitted?
  {
  }

  /** With the intended upload, a valid form and a successful POST submit
      the posted URL */
  lemma NewImageSubmittedWhenPosted(form: RecipeForm, ingredients: seq<Ingredient>, steps: seq<string>,
                                    currentImageUrl: string, file: ImageFile, post: Post)
    requires ValidateForm(form, ingredients, steps, currentImageUrl, true).Valid?
    requires ValidateUpload(Some(file)).None?
    requires post(file).Success? && post(file).value.success && post(file).value.url != ""
    ensures var r := Submit(form, ingredients, steps, currentImageUrl, Some(file), f => UploadImageIntended(f, post));
      r.Submitted? && r.payload.imageUrl == post(file).value.url
  {
  }
}

=== FILE: favorites.dfy ===
/** The favorites store of `src/utils/favoriteUtils.js`: an ordered list of
    recipe ids persisted under the `favorites` storage key, with membership,
    toggle, add, remove and count, plus the materializer that resolves the
    ids into recipe records through the recipe service.

    Storage is a value: the blob under the key is `Some(ids)` when it holds
    a parsable JSON array and `None` when it is missing, empty or not JSON.
    Every `favoriteUpdated` window event the store dispatches is appended to
    an event log kept beside the blob. */
module Favorites {
  import opened Wrappers
  import opened Seqs
  import opened JsValues

  /** Detail of a `favoriteUpdated` event */
  datatype FavoriteEvent = FavoriteUpdated(recipeId: string, isFavorited: bool)

  datatype Store = Store(blob: Option<seq<string>>, events: seq<FavoriteEvent>)

  /** The store after a call, and the call's boolean return value */
  datatype Effect = Effect(store: Store, result: bool)

  /** `getFavoriteIds`: a missing, empty or unparsable blob reads as no ids */
  function GetFavoriteIds(blob: Option<seq<string>>): (ids: seq<string>)
    ensures blob.None? ==> ids == []
  {
    blob.GetOr([])
  }

  /** The storage key the ids are kept under */
  const StorageKey: string := "favorites"

  /** `isFavorited` (`includes`); it agrees with the `indexOf` search the
      mutations use to decide between adding and removing */
  function IsFavorited(blob: Option<seq<string>>, recipeId: string): (r: bool)
    ensures r <==> IndexOf(GetFavoriteIds(blob), recipeId) >= 0
    ensures blob.None? ==> !r
  {
    recipeId in GetFavoriteIds(blob)
  }

  /** `getFavoriteCount` */
  function GetFavoriteCount(blob: Option<seq<string>>): (n: nat)
    ensures blob.None? ==> n == 0
    ensures n == 0 ==> forall recipeId :: !IsFavorited(blob, recipeId)
  {
    |GetFavoriteIds(blob)|
  }

  /** `after` is `before` with its first `x` taken out */
  ghost predicate RemovedFirst(before: seq<string>, after: seq<string>, x: string) {
    exists i :: 0 <= i <= |after| && before == after[..i] + [x] + after[i..] && x !in after[..i]
  }

  /** Taking out the position `indexOf` finds removes the first occurrence */
  lemma RemoveAtFirstIndex(ids: seq<string>, x: string)
    requires x in ids
    ensures RemovedFirst(ids, RemoveAt(ids, IndexOf(ids, x)), x)
  {
    var i := IndexOf(ids, x);
    var after := RemoveAt(ids, i);
    RemoveAtSplit(ids, i);
    assert ids == after[..i] + [x] + after[i..] && x !in after[..i];
  }

  /** Writes `ids` back under the key and logs one event */
  function Persist(st: Store, ids: seq<string>, recipeId: string, favorited: bool): Store {
    Store(Some(ids), st.events + [FavoriteUpdated(recipeId, favorited)])
  }

  /** `toggleFavorite`: removes the first occurrence of the id if there is
      one, else appends it; always persists and emits one event; returns
      whether the id was absent beforehand */
  function Toggle(st: Store, recipeId: string): (r: Effect)
    ensures r.result <==> !IsFavorited(st.blob, recipeId)
    ensures r.store.blob.Some?
    ensures r.store.events == st.events + [FavoriteUpdated(recipeId, r.result)]
    ensures r.result ==> GetFavoriteIds(r.store.blob) == GetFavoriteIds(st.blob) + [recipeId]
    ensures !r.result ==> RemovedFirst(GetFavoriteIds(st.blob), GetFavoriteIds(r.store.blob), recipeId)
  {
    var ids := GetFavoriteIds(st.blob);
    var index := IndexOf(ids, recipeId);
    if index > -1 then
      var ids' := RemoveAt(ids, index);
      RemoveAtFirstIndex(ids, recipeId);
      Effect(Persist(st, ids', recipeId, false), false)
    else
      Effect(Persist(st, ids + [recipeId], recipeId, true), true)
  }

  /** `addToFavorites`: appends an absent id and reports true; a present id
      leaves the store, blob and event log alike, untouched */
  function Add(st: Store, recipeId: string): (r: Effect)
    ensures r.result <==> !IsFavorited(st.blob, recipeId)
    ensures !r.result ==> r.store == st
    ensures r.result ==> r.store.events == st.events + [FavoriteUpdated(recipeId, true)]
    ensures r.result ==> GetFavoriteIds(r.store.blob) == GetFavoriteIds(st.blob) + [recipeId]
  {
    var ids := GetFavoriteIds(st.blob);
    if recipeId !in ids then Effect(Persist(st, ids + [recipeId], recipeId, true), true)
    else Effect(st, false)
  }

  /** `removeFromFavorites`: removes the first occurrence of a present id and
      reports true; an absent id leaves the store untouched */
  function Remove(st: Store, recipeId: string): (r: Effect)
    ensures r.result <==> IsFavorited(st.blob, recipeId)
    ensures !r.result ==> r.store == st
    ensures r.result ==> r.store.events == st.events + [FavoriteUpdated(recipeId, false)]
    ensures r.result ==> RemovedFirst(GetFavoriteIds(st.blob), GetFavoriteIds(r.store.blob), recipeId)
  {
    var ids := GetFavoriteIds(st.blob);
    var index := IndexOf(ids, recipeId);
    if index > -1 then
      var ids' := RemoveAt(ids, index);
      RemoveAtFirstIndex(ids, recipeId);
      Effect(Persist(st, ids', recipeId, false), true)
    else Effect(st, false)
  }

  /** Toggling an absent id twice restores the stored list exactly and logs
      an add event followed by a remove event */
  lemma ToggleTwiceAbsent(st: Store, recipeId: string)
    requires !IsFavorited(st.blob, recipeId)
    ensures var once := Toggle(st, recipeId); var twice := Toggle(once.store, recipeId);
      && once.result && !twice.result
      && GetFavoriteIds(twice.store.blob) == GetFavoriteIds(st.blob)
      && twice.store.events == st.events + [FavoriteUpdated(recipeId, true), FavoriteUpdated(recipeId, false)]
  {
    var ids := GetFavoriteIds(st.blob);
    var once := Toggle(st, recipeId);
    assert GetFavoriteIds(once.store.blob) == ids + [recipeId];
    assert IndexOf(ids + [recipeId], recipeId) == |ids|;
    assert RemoveAt(ids + [recipeId], |ids|) == ids;
  }

  /** In a duplicate-free list, toggling a present id twice restores the
      same ids but moves this one to the end; so when it was not already
      last, the stored order changes */
  lemma ToggleTwicePresent(st: Store, recipeId: string)
    requires IsFavorited(st.blob, recipeId) && NoDup(GetFavoriteIds(st.blob))
    ensures var ids := GetFavoriteIds(st.blob);
      var once := Toggle(st, recipeId); var twice := Toggle(once.store, recipeId);
      var ids2 := GetFavoriteIds(twice.store.blob);
      && !once.result && twice.result
      && multiset(ids2) == multiset(ids)
      && ids2[|ids2| - 1] == recipeId
      && (ids[|ids| - 1] != recipeId ==> ids2 != ids)
  {
    var ids := GetFavoriteIds(st.blob);
    var i := IndexOf(ids, recipeId);
    var once := Toggle(st, recipeId);
    var mid := GetFavoriteIds(once.store.blob);
    assert mid == RemoveAt(ids, i);
    RemoveAtNoDup(ids, i);
    assert !IsFavorited(once.store.blob, recipeId);
    var twice := Toggle(once.store, recipeId);
    var ids2 := GetFavoriteIds(twice.store.blob);
    assert ids2 == RemoveAt(ids, i) + [ids[i]];
    MoveToEnd(ids, i);
  }

  /** Taking an element out and appending it keeps the same elements and
      changes the sequence unless that element was already last */
  lemma MoveToEnd(ids: seq<string>, i: nat)
    requires i < |ids|
    ensures multiset(RemoveAt(ids, i) + [ids[i]]) == multiset(ids)
    ensures ids[|ids| - 1] != ids[i] ==> RemoveAt(ids, i) + [ids[i]] != ids
  {
    var moved := RemoveAt(ids, i) + [ids[i]];
    assert multiset(moved) == multiset(RemoveAt(ids, i)) + multiset{ids[i]};
    assert ids[i] in multiset(ids);
    assert |moved| == |ids| && moved[|moved| - 1] == ids[i];
  }

  /** None of the three mutations introduces a duplicate id */
  lemma MutationsKeepNoDup(st: Store, recipeId: string)
    requires NoDup(GetFavoriteIds(st.blob))
    ensures NoDup(GetFavoriteIds(Toggle(st, recipeId).store.blob))
    ensures NoDup(GetFavoriteIds(Add(st, recipeId).store.blob))
    ensures NoDup(GetFavoriteIds(Remove(st, recipeId).store.blob))
  {
    var ids := GetFavoriteIds(st.blob);
    var i := IndexOf(ids, recipeId);
    if i > -1 {
      RemoveAtNoDup(ids, i);
    } else {
      AppendNoDup(ids, recipeId);
    }
  }

  /** On a duplicate-free list, the event a state-changing call emits
      carries the id's membership after the call, and the count moves by
      exactly one in the event's direction */
  lemma EventsReportNewMembership(st: Store, recipeId: string)
    requires NoDup(GetFavoriteIds(st.blob))
    ensures var r := Toggle(st, recipeId);
      && IsFavorited(r.store.blob, recipeId) == r.result
      && GetFavoriteCount(r.store.blob) == GetFavoriteCount(st.blob) + (if r.result then 1 else -1)
    ensures var r := Add(st, recipeId);
      r.result ==> IsFavorited(r.store.blob, recipeId) && GetFavoriteCount(r.store.blob) == GetFavoriteCount(st.blob) + 1
    ensures var r := Remove(st, recipeId);
      r.result ==> !IsFavorited(r.store.blob, recipeId) && GetFavoriteCount(r.store.blob) + 1 == GetFavoriteCount(st.blob)
  {
    var ids := GetFavoriteIds(st.blob);
    var i := IndexOf(ids, recipeId);
    if i > -1 {
      RemoveAtNoDup(ids, i);
    }
  }

  // The materializer (`getFavoriteRecipes`). The recipe service is a
  // parameter: for an id it either resolves to a response value or throws
  // (a `Failure` carrying the thrown value).

  type RecipeFetch = string -> Result<JsValue, JsValue>

  /** What one per-id fetch contributes before the final `null` filter:
      `None` stands for the `null` the code returns after a throw or an
      unsuccessful response (reading `success` off a nullish response also
      throws and is caught) */
  function FetchOne(fetch: RecipeFetch, recipeId: string): (r: Option<JsValue>)
    ensures r.Some? <==> fetch(recipeId).Success? && !Nullish(fetch(recipeId).value)
                         && Truthy(Get(fetch(recipeId).value, "success"))
    ensures r.Some? ==> r.value == Get(fetch(recipeId).value, "data")
  {
    match fetch(recipeId)
    case Failure(_) => None
    case Success(response) =>
      if !Nullish(response) && Truthy(Get(response, "success")) then Some(Get(response, "data"))
      else None
  }

  /** `x` is the record some id's fetch resolved to */
  ghost predicate FetchedFrom(fetch: RecipeFetch, ids: seq<string>, x: JsValue) {
    exists k :: 0 <= k < |ids| && FetchOne(fetch, ids[k]) == Some(x)
  }

  /** What one id leaves in the result after the `null` filter */
  function Contribution(fetch: RecipeFetch, recipeId: string): seq<JsValue> {
    match FetchOne(fetch, recipeId)
    case Some(v) => if v != Null then [v] else []
    case None => []
  }

  /** The ids' fetched records in id order, dropping every `null`; a
      successful response whose `data` is itself `null` is dropped too */
  function Materialize(fetch: RecipeFetch, ids: seq<string>): (r: seq<JsValue>)
    ensures |r| <= |ids|
    ensures forall x :: x in r ==> x != Null
    ensures forall x :: x in r ==> FetchedFrom(fetch, ids, x)
  {
    if ids == [] then []
    else
      var head := Contribution(fetch, ids[0]);
      var tail := Materialize(fetch, ids[1..]);
      assert forall x :: x in tail ==> FetchedFrom(fetch, ids, x) by {
        forall x | x in tail ensures FetchedFrom(fetch, ids, x) {
          var k :| 0 <= k < |ids[1..]| && FetchOne(fetch, ids[1..][k]) == Some(x);
          assert ids[1..][k] == ids[k + 1];
        }
      }
      assert forall x :: x in head ==> FetchedFrom(fetch, ids, x) by {
        assert FetchOne(fetch, ids[0]) == FetchOne(fetch, ids[0]);
      }
      head + tail
  }

  /** `getFavoriteRecipes` over the stored ids */
  function GetFavoriteRecipes(blob: Option<seq<string>>, fetch: RecipeFetch): (r: seq<JsValue>)
    ensures GetFavoriteIds(blob) == [] ==> r == []
    ensures |r| <= GetFavoriteCount(blob)
    ensures r == Materialize(fetch, GetFavoriteIds(blob))
  {
    var ids := GetFavoriteIds(blob);
    if |ids| == 0 then [] else Materialize(fetch, ids)
  }

  /** Materializing a concatenation materializes each part in turn, so the
      output keeps the ids' order */
  lemma {:induction false} MaterializeAppend(fetch: RecipeFetch, a: seq<string>, b: seq<string>)
    ensures Materialize(fetch, a + b) == Materialize(fetch, a) + Materialize(fetch, b)
  {
    if a == [] {
      assert a + b == b;
    } else {
      assert (a + b)[0] == a[0] && (a + b)[1..] == a[1..] + b;
      MaterializeAppend(fetch, a[1..], b);
      assert Materialize(fetch, a + b) == Contribution(fetch, a[0]) + Materialize(fetch, a[1..] + b);
      assert Materialize(fetch, a) == Contribution(fetch, a[0]) + Materialize(fetch, a[1..]);
    }
  }

  /** An id whose fetch throws or is unsuccessful contributes nothing */
  lemma {:induction false} FailedFetchIsOmitted(fetch: RecipeFetch, a: seq<string>, recipeId: string, b: seq<string>)
    requires FetchOne(fetch, recipeId).None?
    ensures Materialize(fetch, a + [recipeId] + b) == Materialize(fetch, a) + Materialize(fetch, b)
  {
    var single := [recipeId];
    assert single[0] == recipeId && single[1..] == [];
    assert Materialize(fetch, single) == [];
    MaterializeAppend(fetch, a, single);
    MaterializeAppend(fetch, a + single, b);
  }

  /** When every fetch succeeds with non-null data, the result is exactly
      the data in id order */
  lemma {:induction false} AllFetchesSucceed(fetch: RecipeFetch, ids: seq<string>)
    requires forall k :: 0 <= k < |ids| ==> FetchOne(fetch, ids[k]).Some? && FetchOne(fetch, ids[k]).value != Null
    ensures |Materialize(fetch, ids)| == |ids|
    ensures forall k :: 0 <= k < |ids| ==> Materialize(fetch, ids)[k] == FetchOne(fetch, ids[k]).value
  {
    if ids != [] {
      AllFetchesSucceed(fetch, ids[1..]);
      var tail := Materialize(fetch, ids[1..]);
      assert Materialize(fetch, ids) == [FetchOne(fetch, ids[0]).value] + tail;
      forall k | 1 <= k < |ids| ensures Materialize(fetch, ids)[k] == FetchOne(fetch, ids[k]).value {
        assert ids[1..][k - 1] == ids[k];
      }
    }
  }
}

=== FILE: jsvalues.dfy ===
/** A small model of the JavaScript values the client receives from the API
    (parsed JSON plus `undefined`), with the operators whose semantics the
    normalisation code depends on: truthiness, `||`, `??` and optional
    property access `?.`. Numbers are integers; NaN is not modelled. */
module JsValues {

  datatype JsValue =
    | Undefined
    | Null
    | Bool(b: bool)
    | Num(n: int)
    | Str(s: string)
    | Arr(items: seq<JsValue>)
    | Obj(fields: map<string, JsValue>)

  /** `null` or `undefined` */
  predicate Nullish(v: JsValue) {
    v.Undefined? || v.Null?
  }

  /** The values an `if` treats as true: everything except `undefined`,
      `null`, `false`, `0` and the empty string */
  predicate Truthy(v: JsValue) {
    match v
    case Undefined => false
    case Null => false
    case Bool(b) => b
    case Num(n) => n != 0
    case Str(s) => s != ""
    case Arr(_) => true
    case Obj(_) => true
  }

  /** `a || b`: the left operand when it is truthy, else the right one */
  function Or(a: JsValue, b: JsValue): (r: JsValue)
    ensures r == a || r == b
    ensures Truthy(r) <==> Truthy(a) || Truthy(b)
    ensures Truthy(a) ==> r == a
  {
    if Truthy(a) then a else b
  }

  /** `a ?? b`: the left operand unless it is `null` or `undefined` */
  function Coalesce(a: JsValue, b: JsValue): (r: JsValue)
    ensures r == a || r == b
    ensures Nullish(r) <==> Nullish(a) && Nullish(b)
    ensures !Nullish(a) ==> r == a
  {
    if Nullish(a) then b else a
  }

  /** `v?.key`: `undefined` on a nullish receiver or a missing property;
      arrays and primitives carry no named properties in this model */
  function Get(v: JsValue, key: string): (r: JsValue)
    ensures !v.Obj? ==> r == Undefined
    ensures v.Obj? && key !in v.fields ==> r == Undefined
  {
    match v
    case Obj(m) => if key in m then m[key] else Undefined
    case _ => Undefined
  }

  /** `??` and `||` part ways exactly on the falsy values that are not
      nullish: `0`, `false` and `""` survive `??` but not `||` */
  lemma CoalesceOrDiffer(a: JsValue, b: JsValue)
    requires !Nullish(a) && !Truthy(a) && b != a
    ensures Coalesce(a, b) == a && Or(a, b) == b
  {
  }
}

=== FILE: navigation.dfy ===
/** The root navigation state machine of `src/main.jsx` (`AppRoot`): the
    six React state variables, the URL hash they are synchronised with, the
    transition handlers and the render dispatch.

    The hash is part of the state. Assigning a new value to
    `window.location.hash` makes the browser fire `hashchange`, which runs
    the same parser as the initial mount; `HashChange` is that listener and
    is applied as a separate, external transition. */
module Navigation {
  import opened Wrappers
  import opened Seqs
  import opened Text

  datatype Mode = List | Detail | Create | Edit

  datatype ViewState = ViewState(
    showSplash: bool,
    currentPage: string,
    mode: Mode,
    selectedRecipeId: Option<string>,
    selectedCategory: string,
    editingRecipeId: Option<string>)

  /** The React state together with the browser's current hash */
  datatype App = App(view: ViewState, hash: string)

  /** What a deep link names */
  datatype RecipeLink = RecipeLink(recipeId: string, category: string)

  const RecipePrefix: string := "#/recipe/"
  const DefaultCategory: string := "makanan"

  /** The state before the mount effect has run: the splash over the home
      page's list, nothing selected or being edited */
  function InitialView(): (v: ViewState)
    ensures v.showSplash && v.mode == List && v.currentPage == "home"
    ensures v.selectedRecipeId.None? && v.editingRecipeId.None? && v.selectedCategory == DefaultCategory
  {
    ViewState(true, "home", List, None, DefaultCategory, None)
  }

  /** The first field of `s.split('/')`: the text before the first slash */
  function FirstField(s: string): (r: string)
    ensures '/' !in r
    ensures |r| <= |s| && r == s[..|r|]
    ensures |r| == |s| || s[|r|] == '/'
  {
    var i := IndexOf(s, '/');
    if i == -1 then s else s[..i]
  }

  /** A slash-free string followed by nothing or by a slash has itself as
      first field */
  lemma FirstFieldOfJoin(a: string, tail: string)
    requires '/' !in a
    requires tail == [] || tail[0] == '/'
    ensures FirstField(a + tail) == a
  {
    var s := a + tail;
    var r := FirstField(s);
    assert forall k :: 0 <= k < |a| ==> s[k] == a[k] && s[k] != '/';
    assert |a| < |s| ==> s[|a|] == '/';
    assert forall k :: 0 <= k < |r| ==> r[k] == s[k] && r[k] != '/';
    assert s[..|a|] == a;
  }

  /** The hash parser of `handleHashChange`: a hash starting with
      `#/recipe/` names the recipe id before the next slash and the category
      in the field after it, defaulting to `makanan` when that field is
      absent or empty */
  function ParseRecipeHash(hash: string): (r: Option<RecipeLink>)
    ensures r.Some? <==> StartsWith(hash, RecipePrefix)
    ensures r.Some? ==>
      var rest := hash[|RecipePrefix|..];
      && FirstField(rest) == r.value.recipeId
      && r.value.category != ""
      && '/' !in r.value.category
      && (|rest| > |r.value.recipeId| && FirstField(rest[|r.value.recipeId| + 1..]) != "" ==>
            r.value.category == FirstField(rest[|r.value.recipeId| + 1..]))
      && (|rest| == |r.value.recipeId| || FirstField(rest[|r.value.recipeId| + 1..]) == "" ==>
            r.value.category == DefaultCategory)
  {
    if !StartsWith(hash, RecipePrefix) then None
    else
      var rest := hash[|RecipePrefix|..];
      var id := FirstField(rest);
      var second := if |id| == |rest| then "" else FirstField(rest[|id| + 1..]);
      assert '/' !in DefaultCategory;
      Some(RecipeLink(id, if second != "" then second else DefaultCategory))
  }

  /** The hash `handleRecipeClick` and the share button write */
  function RecipeHash(recipeId: string, category: string): (h: string)
    ensures StartsWith(h, RecipePrefix)
    ensures '/' !in recipeId ==> FirstField(h[|RecipePrefix|..]) == recipeId
  {
    var h := RecipePrefix + recipeId + "/" + category;
    assert h[..|RecipePrefix|] == RecipePrefix;
    assert h[|RecipePrefix|..] == recipeId + ("/" + category);
    if '/' in recipeId then h
    else
      FirstFieldOfJoin(recipeId, "/" + category);
      h
  }

  /** Parsing the written hash gives back the id and category, provided
      neither contains a slash and the category is not empty */
  lemma {:induction false} RecipeHashRoundTrip(recipeId: string, category: string)
    requires '/' !in recipeId && '/' !in category && category != ""
    ensures ParseRecipeHash(RecipeHash(recipeId, category)) == Some(RecipeLink(recipeId, category))
  {
    var hash := RecipeHash(recipeId, category);
    assert hash[..|RecipePrefix|] == RecipePrefix;
    var rest := hash[|RecipePrefix|..];
    assert rest == recipeId + ("/" + category);
    FirstFieldOfJoin(recipeId, "/" + category);
    assert rest[|recipeId| + 1..] == category + [];
    FirstFieldOfJoin(category, []);
  }

  /** The `hashchange` listener (also run once on mount): a recipe hash
      opens the detail view and dismisses the splash; any other hash leaves
      the React state as it was */
  function HashChange(app: App, hash: string): (r: App)
    ensures r.hash == hash
    ensures !StartsWith(hash, RecipePrefix) ==> r.view == app.view
    ensures StartsWith(hash, RecipePrefix) ==>
      && r.view.mode == Detail && !r.view.showSplash
      && r.view.selectedRecipeId == Some(ParseRecipeHash(hash).value.recipeId)
      && r.view.selectedCategory == ParseRecipeHash(hash).value.category
      && r.view.currentPage == app.view.currentPage
      && r.view.editingRecipeId == app.view.editingRecipeId
  {
    match ParseRecipeHash(hash)
    case None => App(app.view, hash)
    case Some(link) =>
      App(app.view.(selectedRecipeId := Some(link.recipeId), selectedCategory := link.category,
                    mode := Detail, showSplash := false), hash)
  }

  /** The state after mounting with the browser at `hash`: a recipe link
      opens its detail view over the home page, anything else keeps the
      initial state with the splash */
  function Mount(hash: string): (r: App)
    ensures r.hash == hash
    ensures !StartsWith(hash, RecipePrefix) ==> r.view == InitialView()
    ensures StartsWith(hash, RecipePrefix) ==>
      && r.view.mode == Detail && !r.view.showSplash && r.view.currentPage == "home"
      && r.view.selectedRecipeId == Some(ParseRecipeHash(hash).value.recipeId)
      && r.view.selectedCategory == ParseRecipeHash(hash).value.category
      && r.view.editingRecipeId.None?
  {
    HashChange(App(InitialView(), hash), hash)
  }

  /** `handleSplashComplete` */
  function SplashComplete(app: App): (r: App)
    ensures !r.view.showSplash
    ensures r.view.(showSplash := app.view.showSplash) == app.view && r.hash == app.hash
  {
    app.(view := app.view.(showSplash := false))
  }

  /** `handleNavigation`: back to the list of `page`, forgetting both ids
      and clearing the hash */
  function Navigate(app: App, page: string): (r: App)
    ensures r.view.mode == List && r.view.currentPage == page && r.hash == ""
    ensures r.view.selectedRecipeId.None? && r.view.editingRecipeId.None?
    ensures r.view.showSplash == app.view.showSplash && r.view.selectedCategory == app.view.selectedCategory
  {
    App(app.view.(currentPage := page, mode := List, selectedRecipeId := None, editingRecipeId := None), "")
  }

  /** `handleCreateRecipe` */
  function CreateRecipe(app: App): (r: App)
    ensures r.view == app.view.(mode := Create) && r.hash == ""
  {
    App(app.view.(mode := Create), "")
  }

  /** The category `handleRecipeClick` uses: `category || currentPage` */
  function EffectiveCategory(category: Option<string>, currentPage: string): (c: string)
    ensures category.Some? && category.value != "" ==> c == category.value
    ensures category.None? || category.value == "" ==> c == currentPage
  {
    if category.Some? && category.value != "" then category.value else currentPage
  }

  /** `handleRecipeClick`: opens the detail view and writes the same id and
      category into the hash */
  function RecipeClick(app: App, recipeId: string, category: Option<string>): (r: App)
    ensures r.view.mode == Detail && r.view.selectedRecipeId == Some(recipeId)
    ensures r.view.selectedCategory == EffectiveCategory(category, app.view.currentPage)
    ensures r.hash == RecipeHash(recipeId, r.view.selectedCategory)
    ensures r.view.currentPage == app.view.currentPage && r.view.editingRecipeId == app.view.editingRecipeId
    ensures r.view.showSplash == app.view.showSplash
  {
    var cat := EffectiveCategory(category, app.view.currentPage);
    App(app.view.(selectedRecipeId := Some(recipeId), selectedCategory := cat, mode := Detail),
        RecipeHash(recipeId, cat))
  }

  /** The `hashchange` that follows a recipe click re-parses the hash just
      written and changes nothing, when neither the id nor the effective
      category contains a slash and the category is not empty */
  lemma RecipeClickThenHashChange(app: App, recipeId: string, category: Option<string>)
    requires !app.view.showSplash
    requires '/' !in recipeId
    requires var c := EffectiveCategory(category, app.view.currentPage); '/' !in c && c != ""
    ensures var clicked := RecipeClick(app, recipeId, category);
      HashChange(clicked, clicked.hash) == clicked
  {
    RecipeHashRoundTrip(recipeId, EffectiveCategory(category, app.view.currentPage));
  }

  /** `handleEditRecipe`: switches to the edit view; the hash, the selected
      recipe and the page are left as they were */
  function EditRecipe(app: App, recipeId: string): (r: App)
    ensures r.view.mode == Edit && r.view.editingRecipeId == Some(recipeId)
    ensures r.hash == app.hash
    ensures r.view.selectedRecipeId == app.view.selectedRecipeId && r.view.currentPage == app.view.currentPage
    ensures r.view.showSplash == app.view.showSplash && r.view.selectedCategory == app.view.selectedCategory
  {
    app.(view := app.view.(editingRecipeId := Some(recipeId), mode := Edit))
  }

  /** `handleBack`: like navigation but keeps the current page */
  function Back(app: App): (r: App)
    ensures r.view.mode == List && r.hash == ""
    ensures r.view.selectedRecipeId.None? && r.view.editingRecipeId.None?
    ensures r.view.currentPage == app.view.currentPage
    ensures r.view.showSplash == app.view.showSplash && r.view.selectedCategory == app.view.selectedCategory
  {
    App(app.view.(mode := List, selectedRecipeId := None, editingRecipeId := None), "")
  }

  /** `handleCreateSuccess`; `category` is the created recipe's category
      when both the recipe and its category are truthy */
  function CreateSuccess(app: App, category: Option<string>): (r: App)
    ensures r.view.mode == List && r.hash == ""
    ensures category.Some? && category.value != "" ==> r.view.currentPage == category.value
    ensures category.None? || category.value == "" ==> r.view.currentPage == app.view.currentPage
    ensures r.view.selectedRecipeId == app.view.selectedRecipeId && r.view.editingRecipeId == app.view.editingRecipeId
    ensures r.view.showSplash == app.view.showSplash && r.view.selectedCategory == app.view.selectedCategory
  {
    var page := if category.Some? && category.value != "" then category.value else app.view.currentPage;
    App(app.view.(mode := List, currentPage := page), "")
  }

  /** `handleEditSuccess`: only the mode and the hash change */
  function EditSuccess(app: App): (r: App)
    ensures r.view == app.view.(mode := List) && r.hash == ""
  {
    App(app.view.(mode := List), "")
  }

  /** Every handler that clears the hash leaves a state the `hashchange`
      it triggers does not alter: an empty hash is not a recipe link */
  lemma ClearedHashIsInert(app: App, page: string, category: Option<string>)
    ensures var after := Navigate(app, page); HashChange(after, after.hash) == after
    ensures var after := CreateRecipe(app); HashChange(after, after.hash) == after
    ensures var after := Back(app); HashChange(after, after.hash) == after
    ensures var after := CreateSuccess(app, category); HashChange(after, after.hash) == after
    ensures var after := EditSuccess(app); HashChange(after, after.hash) == after
  {
    assert !StartsWith("", RecipePrefix);
  }

  // Rendering

  datatype Page =
    | SplashPage
    | CreatePage
    | EditPage(editingId: Option<string>)
    | DetailPage(recipeId: Option<string>, category: string)
    | HomePage
    | MakananPage
    | MinumanPage
    | ProfilePage

  /** The page element shown and whether the two navbars are drawn */
  datatype Screen = Screen(page: Page, navbars: bool)

  /** The page switch on `currentPage`; unknown pages render the home page */
  function PageFor(currentPage: string): (p: Page)
    ensures p.HomePage? || p.MakananPage? || p.MinumanPage? || p.ProfilePage?
    ensures p.MakananPage? <==> currentPage == "makanan"
    ensures p.MinumanPage? <==> currentPage == "minuman"
    ensures p.ProfilePage? <==> currentPage == "profile"
  {
    if currentPage == "home" then HomePage
    else if currentPage == "makanan" then MakananPage
    else if currentPage == "minuman" then MinumanPage
    else if currentPage == "profile" then ProfilePage
    else HomePage
  }

  /** `renderCurrentPage` under the splash gate */
  function Render(view: ViewState): (s: Screen)
    ensures s.page.SplashPage? <==> view.showSplash
    ensures s.navbars <==> !view.showSplash && view.mode == List
    ensures !view.showSplash && view.mode == Create ==> s.page == CreatePage
    ensures !view.showSplash && view.mode == Edit ==> s.page == EditPage(view.editingRecipeId)
    ensures !view.showSplash && view.mode == Detail ==> s.page == DetailPage(view.selectedRecipeId, view.selectedCategory)
    ensures !view.showSplash && view.mode == List ==> s.page == PageFor(view.currentPage)
  {
    if view.showSplash then Screen(SplashPage, false)
    else
      var page := match view.mode
        case Create => CreatePage
        case Edit => EditPage(view.editingRecipeId)
        case Detail => DetailPage(view.selectedRecipeId, view.selectedCategory)
        case List => PageFor(view.currentPage);
      Screen(page, view.mode == List)
  }

  /** Mounting shows the splash unless the URL is a recipe deep link, which
      goes straight to that recipe's detail page */
  lemma MountRenders(hash: string)
    ensures !StartsWith(hash, RecipePrefix) ==> Mount(hash).view == InitialView() && Render(Mount(hash).view) == Screen(SplashPage, false)
    ensures StartsWith(hash, RecipePrefix) ==>
      var link := ParseRecipeHash(hash).value;
      Render(Mount(hash).view) == Screen(DetailPage(Some(link.recipeId), link.category), false)
  {
  }

  /** The selected id is not tied to the detail mode: editing from a detail
      page keeps the selection, and a successful edit returns to the list
      with both ids still set */
  lemma SelectionOutlivesDetail(app: App, editId: string)
    requires app.view.mode == Detail && app.view.selectedRecipeId.Some?
    ensures var edited := EditRecipe(app, editId);
      && edited.view.mode == Edit && edited.view.selectedRecipeId.Some?
      && EditSuccess(edited).view.mode == List
      && EditSuccess(edited).view.selectedRecipeId.Some?
      && EditSuccess(edited).view.editingRecipeId == Some(editId)
  {
  }
}

=== FILE: profile.dfy ===
/** The logic of `src/pages/ProfilePage.jsx`: the "my reviews" pipeline of
    `loadUserReviews` (drain the paginated catalog, fetch each recipe's
    reviews, keep the ones written under the local user identifier and
    enrich them with recipe fields), the defaulting applied when the
    profile is saved, the avatar size gate and the events that reload the
    favorites tab.

    The recipe and review services are parameters; a `Failure` is a
    rejected call. */
module Profile {
  import opened Wrappers
  import opened Text
  import Favorites

  datatype Recipe = Recipe(id: string, name: string, imageUrl: string, category: string)

  /** A remote review; `userIdentifier` is `None` when the field is absent */
  datatype Review = Review(id: string, userIdentifier: Option<string>, rating: int, comment: string, createdAt: string)

  /** A review spread into a new object together with four recipe fields */
  datatype ReconciledReview = ReconciledReview(
    review: Review,
    recipeName: string,
    recipeId: string,
    recipeImage: string,
    recipeCategory: string)

  /** One catalog page: `data` is `None` when the response or its `data` is
      missing, `totalPages` is `None` when there is no pagination object or
      it has no `total_pages` */
  datatype RecipePage = RecipePage(data: Option<seq<Recipe>>, totalPages: Option<int>)

  /** `recipeService.getRecipes({page, limit})` */
  type PageFetch = (int, int) -> Result<RecipePage, string>

  const PageLimit: int := 50

  /** The recipes a page contributes; missing data counts as none */
  function PageItems(page: RecipePage): seq<Recipe> {
    page.data.GetOr([])
  }

  /** The loop condition `pagination && page < pagination.total_pages` */
  predicate HasMore(response: RecipePage, page: int) {
    response.totalPages.Some? && page < response.totalPages.value
  }

  /** How a drain ends: the number of page requests made, and either the
      catalog or the error that aborted it */
  datatype DrainRun = DrainRun(requests: nat, outcome: Result<seq<Recipe>, string>)

  /** Puts `items`, obtained with `n` earlier requests, in front of a run */
  function Prepend(items: seq<Recipe>, n: nat, run: Option<DrainRun>): Option<DrainRun> {
    match run
    case None => None
    case Some(DrainRun(k, Success(rest))) => Some(DrainRun(n + k, Success(items + rest)))
    case Some(DrainRun(k, Failure(e))) => Some(DrainRun(n + k, Failure(e)))
  }

  /** The drain that starts at `page`, allowed at most `fuel` requests;
      `None` when it would need more */
  function DrainFrom(fetch: PageFetch, page: int, fuel: nat): (r: Option<DrainRun>)
    ensures r.Some? ==> 1 <= r.value.requests <= fuel
    decreases fuel
  {
    if fuel == 0 then None
    else match fetch(page, PageLimit)
      case Failure(e) => Some(DrainRun(1, Failure(e)))
      case Success(response) =>
        if HasMore(response, page) then Prepend(PageItems(response), 1, DrainFrom(fetch, page + 1, fuel - 1))
        else Some(DrainRun(1, Success(PageItems(response))))
  }

  /** Every page the service can return reports at most `bound` pages */
  ghost predicate PagesBounded(fetch: PageFetch, bound: int) {
    forall page: int :: fetch(page, PageLimit).Success? && fetch(page, PageLimit).value.totalPages.Some?
      ==> fetch(page, PageLimit).value.totalPages.value <= bound
  }

  lemma PrependTwice(a: seq<Recipe>, n: nat, b: seq<Recipe>, m: nat, run: Option<DrainRun>)
    ensures Prepend(a, n, Prepend(b, m, run)) == Prepend(a + b, n + m, run)
  {
    match run
    case None =>
    case Some(DrainRun(k, Success(rest))) => assert a + (b + rest) == (a + b) + rest;
    case Some(DrainRun(k, Failure(e))) =>
  }

  /** When `total_pages` never exceeds `bound`, the drain from any page up
      to `bound` finishes within the remaining pages */
  lemma {:induction false} DrainWithinBound(fetch: PageFetch, page: int, bound: int)
    requires PagesBounded(fetch, bound) && 1 <= page <= bound
    ensures DrainFrom(fetch, page, bound + 1 - page).Some?
    decreases bound - page
  {
    match fetch(page, PageLimit)
    case Failure(_) =>
    case Success(response) =>
      if HasMore(response, page) {
        DrainWithinBound(fetch, page + 1, bound);
      }
  }

  /** The pagination loop of `loadUserReviews`: requests pages 1, 2, ...
      one after another with limit 50 and stops after the first page that
      reports no further page; a rejected request aborts the drain */
  method DrainCatalog(fetch: PageFetch, ghost bound: int) returns (catalog: Result<seq<Recipe>, string>, requests: nat)
    requires 1 <= bound && PagesBounded(fetch, bound)
    ensures DrainFrom(fetch, 1, bound) == Some(DrainRun(requests, catalog))
    ensures 1 <= requests <= bound
  {
    var all: seq<Recipe> := [];
    var page := 1;
    var hasMore := true;
    requests := 0;
    DrainWithinBound(fetch, 1, bound);
    assert Prepend([], 0, DrainFrom(fetch, 1, bound)) == DrainFrom(fetch, 1, bound) by {
      var run := DrainFrom(fetch, 1, bound).value;
      if run.outcome.Success? { assert [] + run.outcome.value == run.outcome.value; }
    }
    while hasMore
      invariant 1 <= page <= bound + 1 && requests == page - 1
      invariant hasMore ==> page <= bound && DrainFrom(fetch, 1, bound) == Prepend(all, requests, DrainFrom(fetch, page, bound + 1 - page))
      invariant !hasMore ==> DrainFrom(fetch, 1, bound) == Some(DrainRun(requests, Success(all)))
      decreases bound + 1 - page
    {
      var response := fetch(page, PageLimit);
      if response.Failure? {
        return Failure(response.error), requests + 1;
      }
      var items := PageItems(response.value);
      if HasMore(response.value, page) {
        PrependTwice(all, requests, items, 1, DrainFrom(fetch, page + 1, bound - page));
      }
      all := all + items;
      hasMore := HasMore(response.value, page);
      page := page + 1;
      requests := requests + 1;
    }
    catalog := Success(all);
  }

  /** The recipes of pages `from`, `from + 1`, ... (`count` of them) in order */
  ghost function PagesFrom(fetch: PageFetch, from: int, count: nat): seq<Recipe>
    decreases count
  {
    if count == 0 then []
    else match fetch(from, PageLimit)
      case Success(response) => PageItems(response) + PagesFrom(fetch, from + 1, count - 1)
      case Failure(_) => []
  }

  /** A service that always answers with `total_pages = total` is asked for
      exactly max(1, total) pages, and the catalog is their recipes in page
      order */
  lemma {:induction false} ConstantTotalPages(fetch: PageFetch, total: int, page: int)
    requires forall p: int :: fetch(p, PageLimit).Success? && fetch(p, PageLimit).value.totalPages == Some(total)
    requires 1 <= page <= (if total < 1 then 1 else total)
    ensures var n := if total < 1 then 1 else total;
      DrainFrom(fetch, page, n + 1 - page) == Some(DrainRun(n + 1 - page, Success(PagesFrom(fetch, page, n + 1 - page))))
    decreases total - page
  {
    var n := if total < 1 then 1 else total;
    var response := fetch(page, PageLimit).value;
    if page < total {
      ConstantTotalPages(fetch, total, page + 1);
    } else {
      assert page == n && n + 1 - page == 1 && !HasMore(response, page);
      assert PagesFrom(fetch, page, 1) == PageItems(response) + [] == PageItems(response);
      assert DrainFrom(fetch, page, 1) == Some(DrainRun(1, Success(PageItems(response))));
    }
  }

  // Reconciliation

  /** `reviewService.getReviews(recipeId)`: `data` is `None` when the
      response's `data` is missing or not an array */
  datatype ReviewResponse = ReviewResponse(success: bool, data: Option<seq<Review>>)

  type ReviewFetch = string -> Result<ReviewResponse, string>

  /** Matching is by the opaque identifier alone, with strict equality */
  predicate MatchesUser(review: Review, userIdentifier: string) {
    review.userIdentifier == Some(userIdentifier)
  }

  function Enrich(review: Review, recipe: Recipe): ReconciledReview {
    ReconciledReview(review, recipe.name, recipe.id, recipe.imageUrl, recipe.category)
  }

  /** The number of reviews written under `userIdentifier` */
  function CountMatching(reviews: seq<Review>, userIdentifier: string): nat {
    if reviews == [] then 0
    else (if MatchesUser(reviews[0], userIdentifier) then 1 else 0) + CountMatching(reviews[1..], userIdentifier)
  }

  /** The filter and `forEach` over one recipe's review list */
  function EnrichMatching(reviews: seq<Review>, recipe: Recipe, userIdentifier: string): (r: seq<ReconciledReview>)
    ensures |r| == CountMatching(reviews, userIdentifier)
    ensures forall x :: x in r ==> x.review in reviews && MatchesUser(x.review, userIdentifier) && x == Enrich(x.review, recipe)
    ensures forall v :: v in reviews && MatchesUser(v, userIdentifier) ==> Enrich(v, recipe) in r
  {
    if reviews == [] then []
    else
      var tail := EnrichMatching(reviews[1..], recipe, userIdentifier);
      assert forall v :: v in reviews ==> v == reviews[0] || v in reviews[1..];
      if MatchesUser(reviews[0], userIdentifier) then [Enrich(reviews[0], recipe)] + tail else tail
  }

  /** Filtering a concatenation filters each part in turn, so the matching
      reviews keep the order and the multiplicity the service returned them
      in */
  lemma {:induction false} EnrichMatchingAppend(a: seq<Review>, b: seq<Review>, recipe: Recipe, userIdentifier: string)
    ensures EnrichMatching(a + b, recipe, userIdentifier)
         == EnrichMatching(a, recipe, userIdentifier) + EnrichMatching(b, recipe, userIdentifier)
  {
    if a == [] {
      assert a + b == b;
    } else {
      assert (a + b)[0] == a[0] && (a + b)[1..] == a[1..] + b;
      EnrichMatchingAppend(a[1..], b, recipe, userIdentifier);
      var head := if MatchesUser(a[0], userIdentifier) then [Enrich(a[0], recipe)] else [];
      assert EnrichMatching(a + b, recipe, userIdentifier) == head + EnrichMatching(a[1..] + b, recipe, userIdentifier);
      assert EnrichMatching(a, recipe, userIdentifier) == head + EnrichMatching(a[1..], recipe, userIdentifier);
    }
  }

  /** A single review is kept, enriched, exactly when it matches the user */
  lemma EnrichMatchingSingle(review: Review, recipe: Recipe, userIdentifier: string)
    ensures EnrichMatching([review], recipe, userIdentifier)
         == if MatchesUser(review, userIdentifier) then [Enrich(review, recipe)] else []
  {
    assert [review][1..] == [];
  }

  /** What one recipe contributes: nothing when its review request is
      rejected, unsuccessful or carries no array */
  function ReviewsForRecipe(recipe: Recipe, fetch: ReviewFetch, userIdentifier: string): (r: seq<ReconciledReview>)
    ensures fetch(recipe.id).Failure? ==> r == []
    ensures fetch(recipe.id).Success? && fetch(recipe.id).value.success && fetch(recipe.id).value.data.Some? ==>
      r == EnrichMatching(fetch(recipe.id).value.data.value, recipe, userIdentifier)
    ensures r != [] ==> fetch(recipe.id).Success? && fetch(recipe.id).value.success && fetch(recipe.id).value.data.Some?
    ensures forall x :: x in r ==> MatchesUser(x.review, userIdentifier) && x == Enrich(x.review, recipe)
  {
    match fetch(recipe.id)
    case Failure(_) => []
    case Success(response) =>
      if response.success && response.data.Some? then EnrichMatching(response.data.value, recipe, userIdentifier)
      else []
  }

  /** Enriched with one of the catalog's recipes */
  ghost predicate EnrichedFrom(catalog: seq<Recipe>, x: ReconciledReview) {
    exists k :: 0 <= k < |catalog| && x == Enrich(x.review, catalog[k])
  }

  /** The reconciled reviews: each recipe's contribution, in catalog order */
  function Reconciled(catalog: seq<Recipe>, fetch: ReviewFetch, userIdentifier: string): (r: seq<ReconciledReview>)
    ensures forall x :: x in r ==> MatchesUser(x.review, userIdentifier) && EnrichedFrom(catalog, x)
  {
    if catalog == [] then []
    else
      var head := ReviewsForRecipe(catalog[0], fetch, userIdentifier);
      var tail := Reconciled(catalog[1..], fetch, userIdentifier);
      assert forall x :: x in tail ==> EnrichedFrom(catalog, x) by {
        forall x | x in tail ensures EnrichedFrom(catalog, x) {
          var k :| 0 <= k < |catalog[1..]| && x == Enrich(x.review, catalog[1..][k]);
          assert catalog[1..][k] == catalog[k + 1];
        }
      }
      assert forall x :: x in head ==> x == Enrich(x.review, catalog[0]);
      head + tail
  }

  /** Reconciling a concatenated catalog reconciles each part in turn */
  lemma {:induction false} ReconciledAppend(a: seq<Recipe>, b: seq<Recipe>, fetch: ReviewFetch, userIdentifier: string)
    ensures Reconciled(a + b, fetch, userIdentifier) == Reconciled(a, fetch, userIdentifier) + Reconciled(b, fetch, userIdentifier)
  {
    if a == [] {
      assert a + b == b;
    } else {
      assert (a + b)[0] == a[0] && (a + b)[1..] == a[1..] + b;
      ReconciledAppend(a[1..], b, fetch, userIdentifier);
    }
  }

  /** A recipe whose review request fails in any way contributes nothing
      and the other recipes are still reconciled */
  lemma FailedRecipeContributesNothing(a: seq<Recipe>, recipe: Recipe, b: seq<Recipe>, fetch: ReviewFetch, userIdentifier: string)
    requires fetch(recipe.id).Failure? || !fetch(recipe.id).value.success || fetch(recipe.id).value.data.None?
    ensures Reconciled(a + [recipe] + b, fetch, userIdentifier) == Reconciled(a, fetch, userIdentifier) + Reconciled(b, fetch, userIdentifier)
  {
    var single := [recipe];
    assert single[0] == recipe && single[1..] == [];
    assert Reconciled(single, fetch, userIdentifier) == [];
    ReconciledAppend(a, single, fetch, userIdentifier);
    ReconciledAppend(a + single, b, fetch, userIdentifier);
  }

  /** One more recipe adds exactly its own reviews at the end */
  lemma ReconciledSnoc(catalog: seq<Recipe>, recipe: Recipe, fetch: ReviewFetch, userIdentifier: string)
    ensures Reconciled(catalog + [recipe], fetch, userIdentifier)
         == Reconciled(catalog, fetch, userIdentifier) + ReviewsForRecipe(recipe, fetch, userIdentifier)
  {
    var single := [recipe];
    assert single[1..] == [];
    assert Reconciled(single, fetch, userIdentifier) == ReviewsForRecipe(recipe, fetch, userIdentifier);
    ReconciledAppend(catalog, single, fetch, userIdentifier);
  }

  /** The per-recipe loop of `loadUserReviews` */
  method ReconcileReviews(catalog: seq<Recipe>, fetch: ReviewFetch, userIdentifier: string) returns (reviews: seq<ReconciledReview>)
    ensures reviews == Reconciled(catalog, fetch, userIdentifier)
  {
    reviews := [];
    var i := 0;
    while i < |catalog|
      invariant 0 <= i <= |catalog|
      invariant reviews == Reconciled(catalog[..i], fetch, userIdentifier)
    {
      var recipe := catalog[i];
      var found: seq<ReconciledReview> := [];
      var response := fetch(recipe.id);
      if response.Success? && response.value.success && response.value.data.Some? {
        found := EnrichMatching(response.value.data.value, recipe, userIdentifier);
      }
      assert found == ReviewsForRecipe(recipe, fetch, userIdentifier);
      ReconciledSnoc(catalog[..i], recipe, fetch, userIdentifier);
      assert catalog[..i + 1] == catalog[..i] + [recipe];
      reviews := reviews + found;
      i := i + 1;
    }
    assert catalog[..i] == catalog;
  }

  /** The reviews tab after a run */
  datatype ReviewsTab = ReviewsTab(userReviews: seq<ReconciledReview>, loading: bool)

  /** `loadUserReviews`: drain, then reconcile against the local identifier;
      a failed drain keeps the previous reviews. The username is read by the
      source but takes no part in the result. */
  method LoadUserReviews(previous: seq<ReconciledReview>, userIdentifier: string, username: string,
                         fetchPage: PageFetch, fetchReviews: ReviewFetch, ghost bound: int)
    returns (tab: ReviewsTab)
    requires 1 <= bound && PagesBounded(fetchPage, bound)
    ensures !tab.loading
    ensures DrainFrom(fetchPage, 1, bound).Some?
    ensures var drained := DrainFrom(fetchPage, 1, bound).value.outcome;
      && (drained.Failure? ==> tab.userReviews == previous)
      && (drained.Success? ==> tab.userReviews == Reconciled(drained.value, fetchReviews, userIdentifier))
  {
    var catalog, _ := DrainCatalog(fetchPage, bound);
    if catalog.Failure? {
      return ReviewsTab(previous, false);
    }
    var reviews := ReconcileReviews(catalog.value, fetchReviews, userIdentifier);
    tab := ReviewsTab(reviews, false);
  }

  // Profile editing

  const DefaultUsername: string := "Pengguna"
  const MaxAvatarBytes: int := 2 * 1024 * 1024

  /** The edit form's fields */
  datatype ProfileDraft = ProfileDraft(username: string, bio: string)

  /** The object `handleSaveProfile` hands to the user service */
  datatype ProfileUpdate = ProfileUpdate(username: string, bio: string, avatar: Option<string>)

  /** `handleSaveProfile`: trims both fields, falls back to the default
      username when the trimmed name is empty, keeps the current avatar */
  function SaveProfileUpdate(draft: ProfileDraft, avatar: Option<string>): (u: ProfileUpdate)
    ensures u.username != "" && u.avatar == avatar && u.bio == Trim(draft.bio)
    ensures IsBlank(draft.username) ==> u.username == DefaultUsername
    ensures !IsBlank(draft.username) ==> u.username == Trim(draft.username)
  {
    var name := Trim(draft.username);
    ProfileUpdate(if name == "" then DefaultUsername else name, Trim(draft.bio), avatar)
  }

  /** Saving the saved values again changes nothing */
  lemma SaveProfileIdempotent(draft: ProfileDraft, avatar: Option<string>)
    ensures var u := SaveProfileUpdate(draft, avatar);
      SaveProfileUpdate(ProfileDraft(u.username, u.bio), u.avatar) == u
  {
    TrimIdempotent(draft.username);
    TrimIdempotent(draft.bio);
    assert IsTrimmed(DefaultUsername);
    TrimOfTrimmed(DefaultUsername);
  }

  datatype AvatarChange = AvatarIgnored | AvatarTooLarge | AvatarRead

  /** `handleAvatarChange`: no file does nothing; a file over 2 MiB is
      refused before it is read */
  function AvatarDecision(fileSize: Option<int>): (r: AvatarChange)
    ensures r.AvatarRead? <==> fileSize.Some? && fileSize.value <= MaxAvatarBytes
    ensures r.AvatarIgnored? <==> fileSize.None?
  {
    match fileSize
    case None => AvatarIgnored
    case Some(size) => if size > MaxAvatarBytes then AvatarTooLarge else AvatarRead
  }

  datatype WindowEvent = StorageChanged(key: Option<string>) | FavoriteUpdated

  /** The listeners that reload the favorites tab: a `storage` event only
      for the favorites key, every `favoriteUpdated` event */
  function ReloadsFavorites(event: WindowEvent): (b: bool)
    ensures event.FavoriteUpdated? ==> b
    ensures event.StorageChanged? ==> (b <==> event.key == Some(Favorites.StorageKey))
  {
    match event
    case StorageChanged(key) => key == Some(Favorites.StorageKey)
    case FavoriteUpdated => true
  }

  /** The window event a store event is dispatched as */
  function Dispatched(event: Favorites.FavoriteEvent): WindowEvent {
    FavoriteUpdated
  }

  /** A store call either leaves the store as it was or logs exactly one
      event, and that event reloads the tab */
  predicate ChangeReloads(before: Favorites.Store, after: Favorites.Store) {
    after == before
    || (|after.events| == |before.events| + 1 && ReloadsFavorites(Dispatched(after.events[|before.events|])))
  }

  /** The tab never misses a change made through the store: toggle, add and
      remove each dispatch an event that reloads it whenever they change
      anything, another tab's write under the favorites key reloads it too,
      and no other key does. Every store event is dispatched as
      `favoriteUpdated`, which always reloads, so the first three clauses
      rest on the one-event-per-change contracts of `Toggle`, `Add` and
      `Remove`, and the last two evaluate the `storage` filter */
  lemma StoreChangesReloadFavorites(st: Favorites.Store, recipeId: string, otherKey: Option<string>)
    requires otherKey != Some(Favorites.StorageKey)
    ensures ChangeReloads(st, Favorites.Toggle(st, recipeId).store)
    ensures ChangeReloads(st, Favorites.Add(st, recipeId).store)
    ensures ChangeReloads(st, Favorites.Remove(st, recipeId).store)
    ensures ReloadsFavorites(StorageChanged(Some(Favorites.StorageKey)))
    ensures !ReloadsFavorites(StorageChanged(otherKey))
  {
  }
}

=== FILE: seqs.dfy ===
/** Sequence helpers shared by the favorites store, the hash parser and the
    edit form: JavaScript's `indexOf`, removal of one position, and the
    no-duplicates invariant. */
module Seqs {

  /** Sequences without repeated elements */
  predicate NoDup<T(==)>(s: seq<T>) {
    forall i, j :: 0 <= i < j < |s| ==> s[i] != s[j]
  }

  /** `Array.prototype.indexOf`: the first position holding `x`, or -1 */
  function IndexOf<T(==)>(s: seq<T>, x: T): (r: int)
    ensures -1 <= r < |s|
    ensures r == -1 <==> x !in s
    ensures 0 <= r ==> s[r] == x && x !in s[..r]
  {
    if |s| == 0 then -1
    else if s[0] == x then 0
    else
      var k := IndexOf(s[1..], x);
      if k == -1 then -1
      else
        assert s[..k+1] == [s[0]] + s[1..][..k];
        k + 1
  }

  /** The sequence with position `i` taken out (`splice(i, 1)`) */
  function RemoveAt<T>(s: seq<T>, i: nat): (r: seq<T>)
    requires i < |s|
    ensures |r| == |s| - 1
    ensures forall k :: 0 <= k < i ==> r[k] == s[k]
    ensures forall k :: i <= k < |r| ==> r[k] == s[k + 1]
    ensures multiset(r) == multiset(s) - multiset{s[i]}
  {
    assert s == s[..i] + [s[i]] + s[i+1..];
    s[..i] + s[i+1..]
  }

  /** Putting the removed element back where it was restores the sequence */
  lemma RemoveAtSplit<T>(s: seq<T>, i: nat)
    requires i < |s|
    ensures RemoveAt(s, i)[..i] == s[..i]
    ensures s == RemoveAt(s, i)[..i] + [s[i]] + RemoveAt(s, i)[i..]
  {
    var r := RemoveAt(s, i);
    assert r == s[..i] + s[i+1..];
    assert r[..i] == s[..i] && r[i..] == s[i+1..];
    assert s == s[..i] + [s[i]] + s[i+1..];
  }

  /** Removing an element keeps a duplicate-free sequence duplicate-free */
  lemma RemoveAtNoDup<T>(s: seq<T>, i: nat)
    requires i < |s| && NoDup(s)
    ensures NoDup(RemoveAt(s, i))
    ensures s[i] !in RemoveAt(s, i)
  {
    var r := RemoveAt(s, i);
    forall a, b | 0 <= a < b < |r|
      ensures r[a] != r[b]
    {
      var a' := if a < i then a else a + 1;
      var b' := if b < i then b else b + 1;
      assert r[a] == s[a'] && r[b] == s[b'] && a' < b';
    }
    forall k | 0 <= k < |r|
      ensures r[k] != s[i]
    {
      if k < i { assert r[k] == s[k]; } else { assert r[k] == s[k + 1]; }
    }
  }

  /** Appending an absent element keeps a duplicate-free sequence duplicate-free */
  lemma AppendNoDup<T>(s: seq<T>, x: T)
    requires NoDup(s) && x !in s
    ensures NoDup(s + [x])
  {
  }
}

=== FILE: share_button.dfy ===
/** The logic of `src/components/common/ShareButton.jsx`: the link it
    shares, the data handed to the native share sheet, the choice between
    native sharing and copying, and when the button shows "copied". The
    browser APIs are parameters describing how each call settled. */
module ShareButton {
  import opened Wrappers
  import opened Seqs
  import opened Text
  import opened Navigation

  const AppTitle: string := "Resep Nusantara"
  const AbortErrorName: string := "AbortError"

  /** The share link: the page's origin and path followed by the recipe
      hash; the category prop defaults to `makanan` only when it is not
      passed at all */
  function ShareUrl(origin: string, pathname: string, recipeId: string, category: Option<string>): (r: string)
    ensures |r| == |origin| + |pathname| + |RecipeHash(recipeId, category.GetOr(DefaultCategory))|
    ensures r[..|origin| + |pathname|] == origin + pathname
    ensures r[|origin| + |pathname|..] == RecipeHash(recipeId, category.GetOr(DefaultCategory))
  {
    origin + pathname + RecipeHash(recipeId, category.GetOr(DefaultCategory))
  }

  /** `location.hash`: the URL from its first `#` on, or empty when there
      is no `#` or nothing follows the first one */
  function Fragment(url: string): (r: string)
    ensures '#' !in url ==> r == ""
    ensures '#' in url && r == "" ==> url[|url| - 1] == '#' && '#' !in url[..|url| - 1]
    ensures r != "" ==> 2 <= |r| <= |url| && r[0] == '#' && url[|url| - |r|..] == r && '#' !in url[..|url| - |r|]
  {
    var i := IndexOf(url, '#');
    if i < 0 || i == |url| - 1 then "" else url[i..]
  }

  /** Opening the shared link restores the recipe: its hash is the one the
      page's `hashchange` handler parses, and it yields the same id and
      category, when neither contains a slash and the category is not empty */
  lemma {:induction false} ShareUrlOpensRecipe(origin: string, pathname: string, recipeId: string, category: Option<string>)
    requires '#' !in origin + pathname
    requires '/' !in recipeId && '/' !in category.GetOr(DefaultCategory) && category.GetOr(DefaultCategory) != ""
    ensures var url := ShareUrl(origin, pathname, recipeId, category);
      ParseRecipeHash(Fragment(url)) == Some(RecipeLink(recipeId, category.GetOr(DefaultCategory)))
  {
    var cat := category.GetOr(DefaultCategory);
    var base := origin + pathname;
    var hash := RecipeHash(recipeId, cat);
    var url := ShareUrl(origin, pathname, recipeId, category);
    assert url == base + hash;
    assert hash[0] == '#';
    FirstHashAfter(base, hash);
    RecipeHashRoundTrip(recipeId, cat);
  }

  /** The first `#` of `base + hash` is the first character of `hash` when
      `base` holds none */
  lemma FirstHashAfter(base: string, hash: string)
    requires '#' !in base && |hash| > 1 && hash[0] == '#'
    ensures Fragment(base + hash) == hash
  {
    var url := base + hash;
    var i := IndexOf(url, '#');
    assert forall k :: 0 <= k < |base| ==> url[k] == base[k];
    assert url[|base|] == '#';
    assert i >= |base|;
    assert forall k :: 0 <= k < i ==> url[..i][k] == url[k];
    assert forall k :: 0 <= k < i ==> url[k] != '#';
    assert i == |base|;
    assert url[|base|..] == hash;
  }

  /** A category passed as an empty string is shared as an empty segment,
      which the page opens in the default category */
  lemma EmptyCategoryOpensDefault(recipeId: string)
    requires '/' !in recipeId
    ensures ParseRecipeHash(RecipeHash(recipeId, "")) == Some(RecipeLink(recipeId, DefaultCategory))
  {
    var hash := RecipeHash(recipeId, "");
    assert hash[..|RecipePrefix|] == RecipePrefix;
    var rest := hash[|RecipePrefix|..];
    assert rest == recipeId + "/";
    FirstFieldOfJoin(recipeId, "/");
    assert rest[|recipeId| + 1..] == [];
  }

  /** The object given to `navigator.share` */
  datatype ShareData = ShareData(title: string, text: string, url: string)

  /** `recipeName || fallback`: a missing or empty name is replaced */
  function NameOr(recipeName: Option<string>, fallback: string): (r: string)
    ensures recipeName.Some? && recipeName.value != "" ==> r == recipeName.value
    ensures recipeName.None? || recipeName.value == "" ==> r == fallback
  {
    match recipeName
    case Some(name) => if name != "" then name else fallback
    case None => fallback
  }

  const SharePrefix: string := "Lihat resep "
  const ShareSuffix: string := " di " + AppTitle
  const UnnamedRecipe: string := "ini"

  /** The data for `navigator.share`: the recipe's name as title (the app's
      name when it has none) and a sentence naming the recipe (`ini` when it
      has no name) and the app */
  function MakeShareData(recipeName: Option<string>, url: string): (r: ShareData)
    ensures r.url == url
    ensures r.title != ""
    ensures recipeName.Some? && recipeName.value != "" ==>
      r.title == recipeName.value && r.text == SharePrefix + recipeName.value + ShareSuffix
    ensures recipeName.None? || recipeName.value == "" ==>
      r.title == AppTitle && r.text == SharePrefix + UnnamedRecipe + ShareSuffix
    ensures StartsWith(r.text, SharePrefix)
  {
    var text := SharePrefix + NameOr(recipeName, UnnamedRecipe) + ShareSuffix;
    assert text[..|SharePrefix|] == SharePrefix;
    ShareData(NameOr(recipeName, AppTitle), text, url)
  }

  /** The shared sentence names the recipe: the name can be read back from
      between the fixed prefix and suffix */
  lemma ShareTextNamesRecipe(name: string, url: string)
    requires name != ""
    ensures var text := MakeShareData(Some(name), url).text;
      && |text| == |SharePrefix| + |name| + |ShareSuffix|
      && text[|SharePrefix|..|text| - |ShareSuffix|] == name
  {
    var text := MakeShareData(Some(name), url).text;
    assert text == SharePrefix + name + ShareSuffix;
    assert text[|SharePrefix|..|text| - |ShareSuffix|] == name;
  }

  /** How `navigator.share` behaved: absent, resolved, or rejected with an
      error of the given name */
  datatype NativeShare = NoNativeShare | ShareResolved | ShareRejected(errorName: string)

  /** What a click did: the data offered to the share sheet, if any, and the
      text handed to `copyToClipboard`, if any */
  datatype ShareOutcome = ShareOutcome(offered: Option<ShareData>, copiedText: Option<string>)

  /** `handleShare`: the native share sheet when there is one, falling back
      to copying the link when there is none or it fails for any reason but
      the user dismissing it */
  function HandleShare(origin: string, pathname: string, recipeId: string, recipeName: Option<string>,
                       category: Option<string>, native: NativeShare): (r: ShareOutcome)
    ensures r.offered.Some? <==> !native.NoNativeShare?
    ensures r.offered.Some? ==> r.offered.value.url == ShareUrl(origin, pathname, recipeId, category)
    ensures r.copiedText.Some? ==> r.copiedText.value == ShareUrl(origin, pathname, recipeId, category)
    ensures r.copiedText.Some? <==> native.NoNativeShare? || (native.ShareRejected? && native.errorName != AbortErrorName)
    ensures r.offered.None? ==> r.copiedText.Some?
  {
    var url := ShareUrl(origin, pathname, recipeId, category);
    match native
    case NoNativeShare => ShareOutcome(None, Some(url))
    case ShareResolved => ShareOutcome(Some(MakeShareData(recipeName, url)), None)
    case ShareRejected(name) =>
      ShareOutcome(Some(MakeShareData(recipeName, url)), if name != AbortErrorName then Some(url) else None)
  }

  /** How `copyToClipboard` went: whether `clipboard.writeText` resolved
      and, failing that, whether `execCommand('copy')` threw */
  datatype CopyResult = CopyResult(copied: bool, usedFallback: bool)

  /** `copyToClipboard`: the button shows "copied" after a successful
      clipboard write or, failing that, a fallback copy that did not throw */
  function CopyToClipboard(writeResolved: bool, execCommandThrows: bool): (r: CopyResult)
    ensures r.copied <==> writeResolved || !execCommandThrows
    ensures r.usedFallback <==> !writeResolved
  {
    if writeResolved then CopyResult(true, false)
    else CopyResult(!execCommandThrows, true)
  }

  /** The whole click: the button ends up showing "copied" exactly when
      the link was handed to the clipboard and one of the two copies worked */
  lemma ShowsCopiedOnlyAfterCopy(origin: string, pathname: string, recipeId: string, recipeName: Option<string>,
                                 category: Option<string>, native: NativeShare,
                                 writeResolved: bool, execCommandThrows: bool)
    ensures var outcome := HandleShare(origin, pathname, recipeId, recipeName, category, native);
      var copied := outcome.copiedText.Some? && CopyToClipboard(writeResolved, execCommandThrows).copied;
      && (native.ShareResolved? ==> !copied)
      && (native == ShareRejected(AbortErrorName) ==> !copied)
      && (native.NoNativeShare? && writeResolved ==> copied)
  {
  }
}

=== FILE: text.dfy ===
/** String helpers standing in for the JavaScript string methods the client
    calls: `trim`, `startsWith`, `length` and the fields of `split('/')`. Whitespace
    is a fixed set of ASCII characters plus the no-break space, not the
    full Unicode class. */
module Text {

  predicate IsSpace(c: char) {
    c == ' ' || c == '\t' || c == '\n' || c == '\r' || c == '\U{000B}' || c == '\U{000C}' || c == '\U{00A0}'
  }

  /** A string made of whitespace only, which `trim()` turns into `''` */
  predicate IsBlank(s: string) {
    |s| == 0 || (IsSpace(s[0]) && IsBlank(s[1..]))
  }

  lemma {:induction false} BlankAppend(a: string, b: string)
    requires IsBlank(a) && IsBlank(b)
    ensures IsBlank(a + b)
  {
    if |a| == 0 {
      assert a + b == b;
    } else {
      assert (a + b)[0] == a[0] && (a + b)[1..] == a[1..] + b;
      BlankAppend(a[1..], b);
    }
  }

  /** The string without its trailing whitespace */
  function TrimEnd(s: string): (r: string)
    ensures |r| <= |s| && r == s[..|r|]
    ensures r == [] || !IsSpace(r[|r| - 1])
    ensures IsBlank(s[|r|..])
  {
    if |s| > 0 && IsSpace(s[|s| - 1]) then
      var r := TrimEnd(s[..|s| - 1]);
      var last := [s[|s| - 1]];
      assert last[1..] == [];
      BlankAppend(s[..|s| - 1][|r|..], last);
      assert s[|r|..] == s[..|s| - 1][|r|..] + last;
      r
    else
      assert s[|s|..] == [];
      s
  }

  /** `String.prototype.trim`: no whitespace at either end, and empty
      exactly when the string is blank */
  function Trim(s: string): (r: string)
    ensures |r| <= |s|
    ensures IsTrimmed(r)
    ensures r == [] <==> IsBlank(s)
  {
    if |s| > 0 && IsSpace(s[0]) then Trim(s[1..])
    else
      var r := TrimEnd(s);
      if r == [] then
        TrimEndEmptyIsBlank(s);
        r
      else
        assert r[0] == s[0];
        r
  }

  lemma TrimEndEmptyIsBlank(t: string)
    requires TrimEnd(t) == []
    ensures IsBlank(t)
  {
    assert t[0..] == t;
  }

  /** A whitespace character before a blank string gives a blank string */
  lemma BlankCons(c: char, t: string)
    requires IsSpace(c) && IsBlank(t)
    ensures IsBlank([c] + t)
  {
    assert ([c] + t)[1..] == t;
  }

  /** The trimmed string is what is left once a blank prefix and a blank
      suffix are cut off */
  lemma {:induction false} TrimCutsBlankEnds(s: string) returns (i: nat)
    ensures i + |Trim(s)| <= |s| && s[i..i + |Trim(s)|] == Trim(s)
    ensures IsBlank(s[..i]) && IsBlank(s[i + |Trim(s)|..])
  {
    var r := Trim(s);
    if |s| > 0 && IsSpace(s[0]) {
      var t := s[1..];
      assert Trim(t) == r;
      var j := TrimCutsBlankEnds(t);
      i := j + 1;
      DropFirst(s, j, |r|);
      BlankCons(s[0], t[..j]);
    } else {
      i := 0;
      assert r == TrimEnd(s);
      assert s[..0] == [];
      assert s[0..|r|] == r;
    }
  }

  /** Slices of `s` past its first character are slices of `s[1..]` */
  lemma DropFirst(s: string, j: nat, n: nat)
    requires 0 < |s| && j + n <= |s| - 1
    ensures s[j + 1..j + 1 + n] == s[1..][j..j + n]
    ensures s[j + 1 + n..] == s[1..][j + n..]
    ensures s[..j + 1] == [s[0]] + s[1..][..j]
  {
  }

  /** No whitespace at either end */
  predicate IsTrimmed(s: string) {
    s == [] || (!IsSpace(s[0]) && !IsSpace(s[|s| - 1]))
  }

  /** A string already trimmed is its own trim */
  lemma TrimOfTrimmed(s: string)
    requires IsTrimmed(s)
    ensures Trim(s) == s
  {
    assert TrimEnd(s) == s;
  }

  /** Trimming is idempotent */
  lemma TrimIdempotent(s: string)
    ensures Trim(Trim(s)) == Trim(s)
  {
    TrimOfTrimmed(Trim(s));
  }

  /** The UTF-16 code units of one character: two for a character outside
      the Basic Multilingual Plane, which JavaScript stores as a surrogate
      pair, one otherwise */
  function CodeUnits(c: char): nat {
    if c >= '\U{10000}' then 2 else 1
  }

  /** JavaScript's `length` of a string: its UTF-16 code units, between one
      and two per character */
  function Utf16Length(s: string): (n: nat)
    ensures |s| <= n <= 2 * |s|
    ensures (forall k :: 0 <= k < |s| ==> s[k] < '\U{10000}') ==> n == |s|
  {
    if s == [] then 0 else CodeUnits(s[0]) + Utf16Length(s[1..])
  }

  /** `startsWith` */
  predicate StartsWith(s: string, prefix: string) {
    |prefix| <= |s| && s[..|prefix|] == prefix
  }
}

=== FILE: upload_service.dfy ===
/** `src/services/uploadService.js`: the checks `uploadImage` makes before
    posting a file, and what happens after them.

    As written, the method appends to `formData` one statement before the
    `const formData` declaration. Reading a `const` before its declaration
    is a ReferenceError (the temporal dead zone), so once a file passes
    the checks the call rejects with that error and the POST is never
    sent. `UploadImage` models the code as written; `UploadImageIntended`
    declares the form data first and returns what the POST returns. */
module UploadService {
  import opened Wrappers

  datatype ImageFile = ImageFile(size: int, mimeType: string)

  /** The normalised `{success, data: {url}, error}` body of an upload */
  datatype UploadReply = UploadReply(success: bool, url: string, error: string)

  /** The multipart POST to `/api/v1/upload`; a `Failure` carries the
      rejection's message */
  type Post = ImageFile -> Result<UploadReply, string>

  const AllowedImageTypes: seq<string> := ["image/jpeg", "image/jpg", "image/png", "image/webp"]
  const MaxImageBytes: int := 5 * 1024 * 1024

  const NoFileMessage: string := "No file provided"
  const InvalidTypeMessage: string := "Invalid file type. Allowed: .jpg, .jpeg, .png, .webp"
  const TooLargeMessage: string := "File size exceeds 5MB limit"
  const FormDataTdzMessage: string := "Cannot access 'formData' before initialization"

  /** The checks in source order: presence, then type, then size */
  function ValidateUpload(file: Option<ImageFile>): (r: Option<string>)
    ensures r.None? <==> file.Some? && file.value.mimeType in AllowedImageTypes && file.value.size <= MaxImageBytes
    ensures file.None? ==> r == Some(NoFileMessage)
    ensures file.Some? && file.value.mimeType !in AllowedImageTypes ==> r == Some(InvalidTypeMessage)
    ensures file.Some? && file.value.mimeType in AllowedImageTypes && file.value.size > MaxImageBytes ==>
      r == Some(TooLargeMessage)
  {
    match file
    case None => Some(NoFileMessage)
    case Some(f) =>
      if f.mimeType !in AllowedImageTypes then Some(InvalidTypeMessage)
      else if f.size > MaxImageBytes then Some(TooLargeMessage)
      else None
  }

  /** `uploadImage` as written: a validation failure rejects with its
      message, and a file that passes reaches the dead-zone read and
      rejects with a ReferenceError; the catch block rethrows unchanged */
  function UploadImage(file: Option<ImageFile>, post: Post): (r: Result<UploadReply, string>)
    ensures r.Failure?
    ensures ValidateUpload(file).Some? ==> r.error == ValidateUpload(file).value
    ensures ValidateUpload(file).None? ==> r.error == FormDataTdzMessage
  {
    match ValidateUpload(file)
    case Some(message) => Failure(message)
    case None => Failure(FormDataTdzMessage)
  }

  /** `uploadImage` with the form data created before it is filled: a file
      that passes the checks is posted and the POST's outcome is returned */
  function UploadImageIntended(file: Option<ImageFile>, post: Post): (r: Result<UploadReply, string>)
    ensures ValidateUpload(file).Some? ==> r == Failure(ValidateUpload(file).value)
    ensures ValidateUpload(file).None? ==> r == post(file.value)
  {
    match ValidateUpload(file)
    case Some(message) => Failure(message)
    case None => post(file.value)
  }

  /** A 5 MiB file passes the size check; one byte more does not */
  lemma SizeLimitIsInclusive(mimeType: string)
    requires mimeType in AllowedImageTypes
    ensures ValidateUpload(Some(ImageFile(MaxImageBytes, mimeType))).None?
    ensures ValidateUpload(Some(ImageFile(MaxImageBytes + 1, mimeType))) == Some(TooLargeMessage)
  {
  }

  /** A valid PNG shows the defect: the code as written rejects it with the
      ReferenceError, while the intended code returns a successful POST */
  lemma ValidFileNeverPosted(post: Post)
    requires post(ImageFile(1024, "image/png")).Success?
    ensures UploadImage(Some(ImageFile(1024, "image/png")), post) == Failure(FormDataTdzMessage)
    ensures UploadImageIntended(Some(ImageFile(1024, "image/png")), post).Success?
  {
  }
}

=== FILE: use_recipes.dfy ===
/** The response normalisation of `src/hooks/useRecipes.js`: the list hook
    `useRecipes` and the single-recipe hook `useRecipe`. The service call is
    a parameter (its settled promise as a `Result`, the rejection reason on
    `Failure`); the React state is a record, and `null` in it is `Null`. */
module UseRecipes {
  import opened Wrappers
  import opened JsValues

  /** The state of `useRecipes`; `error` is `Null` when there is none */
  datatype RecipesState = RecipesState(recipes: seq<JsValue>, loading: bool, error: JsValue, pagination: JsValue)

  const InitialRecipesState: RecipesState := RecipesState([], true, Null, Null)

  const RecipesFailedMessage: string := "Failed to fetch recipes"
  const RecipesErrorMessage: string := "An error occurred while fetching recipes"

  /** `res?.data ?? res`: the body of an HTTP response, or the value itself
      when it carries no `data` */
  function Payload(res: JsValue): (r: JsValue)
    ensures !Nullish(Get(res, "data")) ==> r == Get(res, "data")
    ensures Nullish(Get(res, "data")) ==> r == res
  {
    Coalesce(Get(res, "data"), res)
  }

  /** `payload?.success === false` */
  predicate ReportsFailure(payload: JsValue) {
    Get(payload, "success") == Bool(false)
  }

  /** `Array.isArray(v) ? v : (v ? [v] : [])` */
  function AsList(v: JsValue): (r: seq<JsValue>)
    ensures v.Arr? ==> r == v.items
    ensures !v.Arr? && Truthy(v) ==> r == [v]
    ensures !Truthy(v) ==> r == []
  {
    if v.Arr? then v.items else if Truthy(v) then [v] else []
  }

  /** `fetchRecipes` once the request has settled. A rejection whose reason
      is `null` or `undefined` throws again inside the handler (reading
      `.message`), so only `loading` and the cleared error are left. */
  function FetchRecipes(previous: RecipesState, response: Result<JsValue, JsValue>): (r: RecipesState)
    ensures !r.loading
    ensures response.Failure? ==> r.pagination == previous.pagination
    ensures response.Failure? && !Nullish(response.error) ==>
      r.recipes == [] && Truthy(r.error) && (Truthy(Get(response.error, "message")) ==> r.error == Get(response.error, "message"))
    ensures response.Failure? && Nullish(response.error) ==> r.recipes == previous.recipes && r.error == Null
    ensures response.Success? ==> (Truthy(r.error) <==> ReportsFailure(Payload(response.value)))
    ensures response.Success? && !ReportsFailure(Payload(response.value)) ==> r.error == Null
    ensures response.Success? && ReportsFailure(Payload(response.value)) ==> r.recipes == [] && r.pagination == Null
    ensures response.Success? && response.value.Arr? ==>
      r.recipes == response.value.items && r.pagination == Null && r.error == Null
    ensures response.Failure? && !Nullish(response.error) ==>
      r.error == Or(Get(response.error, "message"), Str(RecipesErrorMessage))
    ensures response.Success? ==>
      var payload := Payload(response.value);
      && (ReportsFailure(payload) ==> r.error == Or(Get(payload, "message"), Str(RecipesFailedMessage)))
      && (!ReportsFailure(payload) && Get(payload, "data").Arr? ==>
            r.recipes == Get(payload, "data").items && r.pagination == Or(Get(payload, "pagination"), Null))
      && (!ReportsFailure(payload) && !Get(payload, "data").Arr? && !response.value.Arr? ==>
            && r.recipes == AsList(Coalesce(Coalesce(Get(payload, "data"), payload), Arr([])))
            && r.pagination == Coalesce(Get(payload, "pagination"), Null))
  {
    match response
    case Failure(err) =>
      if Nullish(err) then RecipesState(previous.recipes, false, Null, previous.pagination)
      else RecipesState([], false, Or(Get(err, "message"), Str(RecipesErrorMessage)), previous.pagination)
    case Success(res) =>
      var payload := Payload(res);
      if ReportsFailure(payload) then
        RecipesState([], false, Or(Get(payload, "message"), Str(RecipesFailedMessage)), Null)
      else if Get(payload, "data").Arr? then
        RecipesState(Get(payload, "data").items, false, Null, Or(Get(payload, "pagination"), Null))
      else if res.Arr? then
        RecipesState(res.items, false, Null, Null)
      else
        var extracted := Coalesce(Coalesce(Get(payload, "data"), payload), Arr([]));
        RecipesState(AsList(extracted), false, Null, Coalesce(Get(payload, "pagination"), Null))
  }

  /** The API's envelope `{success: true, data, pagination}` */
  function Envelope(items: seq<JsValue>, pagination: JsValue): JsValue {
    Obj(map["success" := Bool(true), "data" := Arr(items), "pagination" := pagination])
  }

  /** An HTTP response whose body is `body` */
  function HttpResponse(body: JsValue): JsValue {
    Obj(map["data" := body])
  }

  /** A full HTTP response around the envelope yields its items and its
      pagination (or `null` when that is falsy) */
  lemma WrappedEnvelope(previous: RecipesState, items: seq<JsValue>, pagination: JsValue)
    ensures var r := FetchRecipes(previous, Success(HttpResponse(Envelope(items, pagination))));
      && r.recipes == items && r.error == Null
      && r.pagination == (if Truthy(pagination) then pagination else Null)
  {
    var payload := Payload(HttpResponse(Envelope(items, pagination)));
    assert payload == Envelope(items, pagination);
    assert Get(payload, "data") == Arr(items);
  }

  /** A bare envelope yields the same items, but its pagination is lost: the
      payload becomes the `data` array, which has no `pagination` */
  lemma BareEnvelopeDropsPagination(previous: RecipesState, items: seq<JsValue>, pagination: JsValue)
    ensures var r := FetchRecipes(previous, Success(Envelope(items, pagination)));
      r.recipes == items && r.error == Null && r.pagination == Null
  {
    var res := Envelope(items, pagination);
    assert Get(res, "data") == Arr(items);
    assert Payload(res) == Arr(items);
  }

  /** A failure reported in either shape sets the same error */
  lemma FailureShapesAgree(previous: RecipesState, message: JsValue)
    ensures var body := Obj(map["success" := Bool(false), "message" := message]);
      && FetchRecipes(previous, Success(body)) == FetchRecipes(previous, Success(HttpResponse(body)))
      && FetchRecipes(previous, Success(body)).recipes == []
  {
    var body := Obj(map["success" := Bool(false), "message" := message]);
    assert Get(body, "data") == Undefined;
    assert Payload(body) == body;
    assert Payload(HttpResponse(body)) == body;
  }

  // useRecipe

  /** The state of `useRecipe`; `recipe` and `error` are `Null` when absent */
  datatype RecipeState = RecipeState(recipe: JsValue, loading: bool, error: JsValue)

  const InitialRecipeState: RecipeState := RecipeState(Null, true, Null)

  const RecipeFailedMessage: string := "Failed to fetch recipe"
  const RecipeErrorMessage: string := "An error occurred while fetching recipe"

  /** `fetchRecipe`: a falsy id only ends the loading; otherwise the service
      is asked for that id and its response normalised */
  function FetchRecipe(previous: RecipeState, id: JsValue, fetch: JsValue -> Result<JsValue, JsValue>): (r: RecipeState)
    ensures !r.loading
    ensures !Truthy(id) ==> r == previous.(loading := false)
    ensures Truthy(id) && fetch(id).Success? ==>
      var payload := Payload(fetch(id).value);
      && (Truthy(r.error) <==> ReportsFailure(payload))
      && (ReportsFailure(payload) ==> r.recipe == Null)
      && (!ReportsFailure(payload) ==> r.error == Null && r.recipe != Undefined
                                       && (Nullish(r.recipe) <==> Nullish(payload)))
    ensures Truthy(id) && fetch(id).Success? ==>
      var payload := Payload(fetch(id).value);
      && (ReportsFailure(payload) ==> r.error == Or(Get(payload, "message"), Str(RecipeFailedMessage)))
      && (!ReportsFailure(payload) && Truthy(Get(payload, "data")) ==> r.recipe == Get(payload, "data"))
      && (!ReportsFailure(payload) && !Truthy(Get(payload, "data")) ==> r.recipe == Coalesce(payload, Null))
    ensures Truthy(id) && fetch(id).Failure? && !Nullish(fetch(id).error) ==>
      r.recipe == Null && r.error == Or(Get(fetch(id).error, "message"), Str(RecipeErrorMessage)) && Truthy(r.error)
    ensures Truthy(id) && fetch(id).Failure? && Nullish(fetch(id).error) ==>
      r.recipe == previous.recipe && r.error == Null
  {
    if !Truthy(id) then previous.(loading := false)
    else
      match fetch(id)
      case Failure(err) =>
        if Nullish(err) then RecipeState(previous.recipe, false, Null)
        else RecipeState(Null, false, Or(Get(err, "message"), Str(RecipeErrorMessage)))
      case Success(res) =>
        var payload := Payload(res);
        if ReportsFailure(payload) then
          RecipeState(Null, false, Or(Get(payload, "message"), Str(RecipeFailedMessage)))
        else if Truthy(Get(payload, "data")) then RecipeState(Get(payload, "data"), false, Null)
        else RecipeState(Coalesce(payload, Null), false, Null)
  }

  /** A recipe object without `data` or `success` fields arrives the same
      whether it comes wrapped in an HTTP response around the envelope or as
      a bare envelope */
  lemma RecipeShapesAgree(previous: RecipeState, id: JsValue, recipe: map<string, JsValue>)
    requires Truthy(id)
    requires "data" !in recipe && "success" !in recipe
    ensures var envelope := Obj(map["success" := Bool(true), "data" := Obj(recipe)]);
      && FetchRecipe(previous, id, _ => Success(HttpResponse(envelope))).recipe == Obj(recipe)
      && FetchRecipe(previous, id, _ => Success(envelope)).recipe == Obj(recipe)
  {
    var envelope := Obj(map["success" := Bool(true), "data" := Obj(recipe)]);
    assert Payload(HttpResponse(envelope)) == envelope;
    assert Get(envelope, "data") == Obj(recipe);
    assert Payload(envelope) == Obj(recipe);
  }
}

=== FILE: wrappers.dfy ===
/** Failure-carrying wrappers used across the model: a missing value and an
    operation that either succeeds with a value or fails with an error (a
    rejected promise or a thrown exception in the client). */
module Wrappers {

  datatype Option<+T> = None | Some(value: T) {

    /** The wrapped value, or `default` when there is none */
    function GetOr(default: T): T {
      match this
      case Some(v) => v
      case None => default
    }
  }

  datatype Result<+R, +E> = Success(value: R) | Failure(error: E) {

    /** Forgets the error */
    function ToOption(): Option<R> {
      match this
      case Success(v) => Some(v)
      case Failure(_) => None
    }
  }
}
